=== FILE: README.md ===
# Result extraction, ANSI stripping and search snapshots of the AI-Agent-Lab agents

This project models three small pieces of the agent tooling in Dafny and proves properties of them:

- `extract_final_result` picks the last result block out of an agent transcript. The repository has three copies of it:
  - `Advanced-Agents/Finance-Agent/utils.py`;
  - `Keypoint-Organizer-Agent/keypoint_workforce.py`;
  - `keypoint_organizer/keypoint_workforce.py`.

  The copies have the same logic, so one definition (`ResultExtraction.ExtractFinalResult`) stands for all three. The rows below cite whichever copy shows the step in question. The function works like this:
  - It takes the text after the last `Result ---`, starting after the line that marker ends.
  - Without that marker, it takes the text after the last non-overlapping match of the subtask header pattern `---\s*Subtask.*?Result\s*---\s*\n`, which is matched ignoring case.
  - Otherwise it takes the whole text.
  - In every case the chosen text is stripped of surrounding whitespace.
- `strip_ansi_codes` deletes ANSI escape sequences in one left-to-right pass of a regular expression. It handles two kinds:
  - an ESC followed by one byte from `@`–`Z`, `\` or `]`–`_`;
  - a control sequence: ESC `[`, then parameter bytes, then intermediate bytes, then a final byte.
- `tool_with_snapshots` wraps the finance agent's search tool:
  - It takes the candidate results out of whatever the search returned.
  - It keeps the dicts with a `"url"` and turns URL strings into `{"url": s}`.
  - It asks the snapshot store for a snapshot of every truthy URL.
  - It records each snapshot's metadata on its result under `"snapshot_meta"`.
  - It returns the results together with the list of snapshot metadata, and appends the snapshots to the session's list.

The modules, one per file:

- `Wrappers` (`wrappers.dfy`): `Option` and `Result`.
- `Text` (`text.dfy`): the Python string operations used: `str.isspace`, `strip`, `rfind`, `find`, `startswith`, and substring occurrence.
- `SubtaskHeader` (`subtask_header.dfy`):
  - a matcher for the subtask header pattern that follows the backtracking order of Python's `re`;
  - a declarative description of the pattern's language;
  - `finditer`, with a declarative description of the chain of non-overlapping leftmost matches it yields.
- `ResultExtraction` (`extract_result.dfy`): `extract_final_result`.
- `AnsiEscapes` (`ansi.dfy`):
  - the escape-sequence grammar;
  - the left-to-right substitution;
  - a reference description of that substitution as a leftmost-first division of the text into kept characters and deleted sequences.
- `JsonValues` (`json.dfy`): the JSON-like values the search returns. A dict is an association list in insertion order.
- `SnapshotTool` (`snapshot_tool.dfy`): `tool_with_snapshots`.

Things the model takes as parameters or leaves out:
- The snapshot store (`SnapshotManager.snapshot_url`, which does network I/O and reads the clock) is a parameter `fetch` from a URL value to an optional snapshot.
- The session's list `all_snapshots` is passed in and returned.
- The search call `tool_fn(query)` is not modelled: its answer `raw` is the input.

## Model

| member | source | states |
|---|---|---|
| Text.IsSpace | Advanced-Agents/Finance-Agent/utils.py:15 | the whitespace set of `str.isspace`, used by `strip` and by `\s` in a `str` pattern: U+0009..U+000D, U+001C..U+0020, U+0085, U+00A0, U+1680, U+2000..U+200A, U+2028, U+2029, U+202F, U+205F, U+3000 (a definition with no contract of its own) |
| Text.StripOneChar | Advanced-Agents/Finance-Agent/utils.py:25 | `strip` removes a single character exactly when it is whitespace and otherwise keeps it; on ASCII it removes exactly the space, TAB, LF, VT, FF, CR and U+001C..U+001F, so every other ASCII character, DEL included, is kept |
| Text.Strip | Advanced-Agents/Finance-Agent/utils.py:25 | `str.strip()` leaves no whitespace at either end and never grows the text |
| Text.StripIsSubstring | Advanced-Agents/Finance-Agent/utils.py:25 | what `strip` returns is a contiguous piece of its argument |
| Text.StripCharacterized | Advanced-Agents/Finance-Agent/utils.py:19 | stripping whitespace + m + whitespace gives back m whenever m has no whitespace at its ends, so exactly the surrounding whitespace is removed |
| Text.StripIdempotent | Keypoint-Organizer-Agent/keypoint_workforce.py:204 | stripping a stripped text changes nothing |
| Text.RFind | Advanced-Agents/Finance-Agent/utils.py:12 | `rfind` yields, when it finds something, an index where the needle occurs |
| Text.RFindSpec | Advanced-Agents/Finance-Agent/utils.py:12 | `rfind` yields an occurrence with no later occurrence after it, and yields -1 (None) exactly when there is no occurrence |
| Text.RFindIsLastOccurrence | Advanced-Agents/Finance-Agent/utils.py:12 | an occurrence with no later occurrence is exactly what `rfind` returns |
| Text.RFindShift | Keypoint-Organizer-Agent/keypoint_workforce.py:190 | text put in front of a string that contains the needle cannot hide its last occurrence, only shift it by the added length |
| Text.FindChar | Advanced-Agents/Finance-Agent/utils.py:22 | `find("\n", start)` yields, when it finds one, a newline at or after `start` |
| Text.FindCharSpec | Advanced-Agents/Finance-Agent/utils.py:22 | `find` skips no newline between `start` and what it yields, and yields -1 (None) exactly when there is none from `start` on |
| Text.FindCharIsFirst | Advanced-Agents/Finance-Agent/utils.py:22 | the first newline at or after `start` is exactly what `find` yields |
| Text.StartsWith | Advanced-Agents/Finance-Agent/finance_agent.py:153 | `str.startswith(p)`: the text is at least as long as `p` and begins with `p`, character for character (a definition with no contract of its own) |
| Text.FindCharShift | keypoint_organizer/keypoint_workforce.py:201 | text put in front shifts the first newline found after a shifted start by the added length |
| SubtaskHeader.LowersTo | Advanced-Agents/Finance-Agent/utils.py:15 | `re.IGNORECASE` on an ASCII letter: an upper-case letter A..Z matches its lower-case partner (32 code points above) and every other character matches only itself; non-ASCII folding is listed under Left out (a definition with no contract of its own) |
| SubtaskHeader.WordAt | Advanced-Agents/Finance-Agent/utils.py:15 | the literal `Subtask` or `Result` of the pattern matches at `i` when each of its characters, in order, is matched case-insensitively by the text from `i` on (a definition with no contract of its own) |
| SubtaskHeader.TailAt | Advanced-Agents/Finance-Agent/utils.py:15 | the tail `Result\s*---\s*\n` tried at `p` ends, when it matches, just after a newline at least 10 characters on; TailAtCorrect relates it to the tail's language |
| SubtaskHeader.LazyTail | Advanced-Agents/Finance-Agent/utils.py:15 | the lazy `.*?` followed by the tail, from `p`, ends just after a newline at least 10 characters on; LazyTailFirst says where it stops |
| SubtaskHeader.MatchAt | Advanced-Agents/Finance-Agent/utils.py:15 | the pattern anchored at `s` ends, when it matches, just after a newline at least 20 characters on; MatchAtSound and MatchAtComplete relate it to the pattern's language |
| SubtaskHeader.FirstMatchFrom | Advanced-Agents/Finance-Agent/utils.py:15 | a match found from `pos` starts at or after `pos`, is what the pattern matches there, and ends just after a newline at least 20 characters on |
| SubtaskHeader.FirstMatchFromSpec | Advanced-Agents/Finance-Agent/utils.py:15 | the search yields the leftmost position at or after `pos` where the pattern matches, and nothing exactly when it matches nowhere from `pos` on |
| SubtaskHeader.LastNewlineSpec | Advanced-Agents/Finance-Agent/utils.py:15 | the final `\s*\n` gives back whitespace only down to the last newline of the run, and fails exactly when the run has no newline |
| SubtaskHeader.TailAtCorrect | Advanced-Agents/Finance-Agent/utils.py:15 | the matcher for `Result\s*---\s*\n` finds a match exactly when the tail's language has a string at that position, and then the longest one (greedy `\s*` giving back down to the last newline) |
| SubtaskHeader.LazyTailFirst | Keypoint-Organizer-Agent/keypoint_workforce.py:194 | the lazy `.*?` ends at the first position where the tail matches |
| SubtaskHeader.MatchAtSound | Advanced-Agents/Finance-Agent/utils.py:15 | what is matched at `s` is in the pattern's language, has the shortest `.*?` of any string there, and for that the longest final whitespace run |
| SubtaskHeader.MatchAtComplete | keypoint_organizer/keypoint_workforce.py:194 | whenever some string at `s` is in the pattern's language, the matcher finds a match at `s` |
| SubtaskHeader.NoMatchesIff | Advanced-Agents/Finance-Agent/utils.py:15-16 | `finditer` yields no match exactly when the pattern matches at no position |
| SubtaskHeader.LastMatchFrom | Advanced-Agents/Finance-Agent/utils.py:15-17 | the last match `finditer` yields from `pos` is a match of the pattern at its start, and ends just after a newline inside the text; LastMatchEndsChain places it at the end of the chain of non-overlapping leftmost matches |
| SubtaskHeader.LastMatchIsLast | Advanced-Agents/Finance-Agent/utils.py:15-17 | after the end of the last match `finditer` yields, no further match starts anywhere |
| SubtaskHeader.LazyTailIs | Advanced-Agents/Finance-Agent/utils.py:15 | when the tail matches at `k` and nowhere in `[p, k)`, the lazy `.*?` from `p` stops at `k` and takes the tail's match there |
| SubtaskHeader.LeftmostIsFound | Advanced-Agents/Finance-Agent/utils.py:15 | one search step finds the leftmost match at or after its start position |
| SubtaskHeader.LastMatchEndsChain | Advanced-Agents/Finance-Agent/utils.py:15-17 | for any chain of matches where each is the leftmost one at or after the previous match's end and none starts after the last end, the last match is what `LastMatchFrom` yields, and it yields none exactly when the chain is empty |
| SubtaskHeader.MatchChainExists | Advanced-Agents/Finance-Agent/utils.py:15 | such a chain of `finditer` matches exists from every start position |
| SubtaskHeader.ChainDoesNotOverlap | Advanced-Agents/Finance-Agent/utils.py:15 | the matches of such a chain start at or after the start position, each ends after it starts, and each starts at or after the end of every earlier one |
| SubtaskHeader.OverlappingMatchSkipped | Advanced-Agents/Finance-Agent/utils.py:15-17 | in `"---subtask result ---\nsubtask x result ---\nBODY"` the pattern matches at 0 (to 22) and at 18 (to 43), and the last match `finditer` yields is the one at 0, because the one at 18 overlaps it |
| ResultExtraction.StartAfterMarkerSpec | Advanced-Agents/Finance-Agent/utils.py:22-23 | the block starts one past the first newline after the marker, or right after the marker exactly when no newline follows |
| ResultExtraction.BlockStart | Advanced-Agents/Finance-Agent/utils.py:11-23 | the block starts inside the text, after the last marker when there is one, and at 0 exactly when there is neither a marker nor a header match |
| ResultExtraction.ExtractFinalResult | Advanced-Agents/Finance-Agent/utils.py:3-25 | the result has no whitespace at either end and is no longer than the transcript |
| ResultExtraction.ResultIsSubstring | Advanced-Agents/Finance-Agent/utils.py:25 | the result is a contiguous piece of the transcript |
| ResultExtraction.MarkerPathResultHasNoMarker | Advanced-Agents/Finance-Agent/utils.py:11-25 | when the marker occurs, the result never contains it: only text after its last occurrence is returned |
| ResultExtraction.MarkerFollowedByNewline | Advanced-Agents/Finance-Agent/utils.py:20-23 | with a newline after the last marker, the result is the stripped text after the first such newline |
| ResultExtraction.MarkerWithoutNewline | Keypoint-Organizer-Agent/keypoint_workforce.py:199-202 | with no newline after the last marker, the result is the stripped text right after the marker |
| ResultExtraction.MarkerPriority | Keypoint-Organizer-Agent/keypoint_workforce.py:189-204 | anything in front of a transcript that contains the marker does not change the result |
| ResultExtraction.SubtaskHeaderPath | Advanced-Agents/Finance-Agent/utils.py:13-17 | without the marker, the result is the stripped text after the end of the last header match, and that end follows a newline |
| ResultExtraction.FallbackWholeText | keypoint_organizer/keypoint_workforce.py:191-198 | with neither the marker nor a header match, the result is the whole transcript stripped |
| AnsiEscapes.ParameterEnd | Advanced-Agents/Finance-Agent/utils.py:30 | `[0-?]*` takes every parameter byte from `i` on and stops at the first other character or at the end |
| AnsiEscapes.IntermediateEnd | Advanced-Agents/Finance-Agent/utils.py:30 | `[ -/]*` takes every intermediate byte from `i` on and stops at the first other character or at the end |
| AnsiEscapes.EscapeLength | Advanced-Agents/Finance-Agent/utils.py:30 | a match of the alternation at an ESC takes the ESC and at least one more character, and stays inside the text; EscapeLengthCorrect says it is exactly the escape sequence there |
| AnsiEscapes.StripAnsiCodes | Advanced-Agents/Finance-Agent/utils.py:28-31 | `re.sub` with an empty replacement never lengthens the text, and when it returns a text as long as its input it returns the input itself |
| AnsiEscapes.EscapeLengthCorrect | Advanced-Agents/Finance-Agent/utils.py:30 | the measured length is that of an escape sequence at the front, and every escape-sequence prefix of the text is the one measured, so the alternation can match in only one way |
| AnsiEscapes.StripIsSubsequence | Advanced-Agents/Finance-Agent/utils.py:31 | stripping only deletes characters and keeps the order of the rest |
| AnsiEscapes.StripKeepsScanText | Advanced-Agents/Finance-Agent/utils.py:30-31 | for any leftmost-first division of the text into escape sequences and single kept characters, the result is exactly the kept characters |
| AnsiEscapes.ScanExists | Advanced-Agents/Finance-Agent/utils.py:31 | every text has such a division |
| AnsiEscapes.NoEscapeUnchanged | Advanced-Agents/Finance-Agent/utils.py:31 | text without ESC passes through unchanged |
| AnsiEscapes.DropsEscapeSequence | Advanced-Agents/Finance-Agent/utils.py:30-31 | an escape sequence at the front is deleted and the scan resumes right after it |
| AnsiEscapes.KeepsUnterminated | Advanced-Agents/Finance-Agent/utils.py:30 | a lone ESC, or ESC `[` followed only by parameter and intermediate bytes, is kept |
| AnsiEscapes.StripSplitsBeforeEsc | Advanced-Agents/Finance-Agent/utils.py:31 | cutting the text just before an ESC commutes with stripping, because no sequence reaches over an ESC |
| AnsiEscapes.KeepsTrailingEsc | Advanced-Agents/Finance-Agent/utils.py:30-31 | a trailing ESC is always kept |
| AnsiEscapes.NotIdempotent | Advanced-Agents/Finance-Agent/utils.py:31 | one pass is not idempotent: ESC ESC `[m` A becomes ESC A, which a second pass deletes |
| JsonValues.Truthy | Advanced-Agents/Finance-Agent/finance_agent.py:160 | Python truthiness as `if not url` tests the URL: None, False, zero and an empty string, list or dict are false, every other value is true (a definition with no contract of its own) |
| JsonValues.Iterate | Advanced-Agents/Finance-Agent/finance_agent.py:150 | iterating yields a list's items, a dict's keys and a string's characters, and raises on None, booleans and numbers |
| JsonValues.AssignSpec | Advanced-Agents/Finance-Agent/finance_agent.py:164-169 | after `d[key] = v` the key maps to `v` and every other key to its old value; an existing key keeps its place and a new one goes last |
| JsonValues.AssignKeepsKeysUnique | Advanced-Agents/Finance-Agent/finance_agent.py:164 | assignment keeps the keys of a dict distinct |
| JsonValues.AssignOverwrites | Advanced-Agents/Finance-Agent/finance_agent.py:164 | assigning a key twice leaves what assigning the second value once leaves |
| SnapshotTool.HasUrl | Advanced-Agents/Finance-Agent/finance_agent.py:151 | the `isinstance(item, dict) and "url" in item` test: the item is a dict holding the key `"url"` (a definition with no contract of its own) |
| SnapshotTool.SnapshotMeta | Advanced-Agents/Finance-Agent/finance_agent.py:164-169 | the metadata dict of a snapshot has four distinct keys; MetaRoundTrip shows it holds every field |
| SnapshotTool.MetaRoundTrip | Advanced-Agents/Finance-Agent/finance_agent.py:164-169 | the recorded metadata holds every field of the snapshot: it reads back to the same snapshot |
| SnapshotTool.Candidates | Advanced-Agents/Finance-Agent/finance_agent.py:140-146 | a dict with a `"results"` key gives exactly what iterating that entry gives (its items, keys or characters), and fails exactly when the entry is None, a boolean or a number; a list answer is its own candidates; any other answer gives none |
| SnapshotTool.NormalizeItem | Advanced-Agents/Finance-Agent/finance_agent.py:151-154 | a dict with a URL is kept as it is; a string is kept, as `{"url": s}` with a truthy URL, exactly when it starts with `http`; anything else is dropped |
| SnapshotTool.Normalize | Advanced-Agents/Finance-Agent/finance_agent.py:148-154 | every normalized result is a dict with a `"url"` key, and there are no more of them than candidates |
| SnapshotTool.NormalizeAppend | Advanced-Agents/Finance-Agent/finance_agent.py:150 | normalizing works candidate by candidate in order: a concatenation normalizes to the concatenation |
| SnapshotTool.NormalizeIdempotent | Advanced-Agents/Finance-Agent/finance_agent.py:149-154 | normalized results normalize to themselves |
| SnapshotTool.NormalizeKeepsUrlDicts | Advanced-Agents/Finance-Agent/finance_agent.py:151-152 | every candidate dict with a URL is among the normalized results |
| SnapshotTool.NormalizeKeepsUrlStrings | Advanced-Agents/Finance-Agent/finance_agent.py:153-154 | every candidate string starting with `http` is among them as `{"url": s}` |
| SnapshotTool.NormalizeOnlyFromCandidates | Advanced-Agents/Finance-Agent/finance_agent.py:150-154 | every normalized result is a candidate dict with a URL or comes from a candidate URL string |
| SnapshotTool.Get | Advanced-Agents/Finance-Agent/finance_agent.py:159 | `r.get("url")` is the value under the key when it is present and `None` otherwise |
| SnapshotTool.AttachOne | Advanced-Agents/Finance-Agent/finance_agent.py:158-170 | a result yields a snapshot exactly when its URL is truthy and the store returns one for it, and then it is the store's snapshot |
| SnapshotTool.AttachOneUpdates | Advanced-Agents/Finance-Agent/finance_agent.py:163-169 | a result keeps every key but `"snapshot_meta"`; that key holds the snapshot's metadata when one was taken; otherwise the result is untouched |
| SnapshotTool.AttachedResults | Advanced-Agents/Finance-Agent/finance_agent.py:158-169 | the loop yields one result per normalized result; AttachedResultsAt and UnfetchedUnchanged say what each one is |
| SnapshotTool.Fetched | Advanced-Agents/Finance-Agent/finance_agent.py:158-170 | no more snapshots are taken than there are normalized results; FetchedAtMostQueried and SnapshotsRecorded bound and place them |
| SnapshotTool.QueriedUrls | Advanced-Agents/Finance-Agent/finance_agent.py:159-162 | only truthy URLs are handed to the store, at most one per result |
| SnapshotTool.FetchedAtMostQueried | Advanced-Agents/Finance-Agent/finance_agent.py:162-170 | there are no more snapshots than URLs handed to the store |
| SnapshotTool.AttachedResultsAt | Advanced-Agents/Finance-Agent/finance_agent.py:158-169 | the loop keeps the results in place: result `i` afterwards is result `i` after its own step |
| SnapshotTool.SnapshotsRecorded | Advanced-Agents/Finance-Agent/finance_agent.py:163-170 | every snapshot taken is recorded, as reported, on one of the results |
| SnapshotTool.UnfetchedUnchanged | Advanced-Agents/Finance-Agent/finance_agent.py:159-163 | a result with a falsy URL, or one the store has no snapshot for, comes out unchanged |
| SnapshotTool.AttachSnapshots | Advanced-Agents/Finance-Agent/finance_agent.py:157-170 | the loop computes the results, snapshots and queried URLs that the item-by-item reference definitions give |
| SnapshotTool.Response | Advanced-Agents/Finance-Agent/finance_agent.py:173-180 | the answer is a dict with exactly two keys, `"results"` then `"snapshots"`, holding the results and, in order, one metadata dict per snapshot |
| SnapshotTool.ToolWithSnapshots | Advanced-Agents/Finance-Agent/finance_agent.py:138-180 | the call fails exactly when the candidates cannot be iterated, and then records nothing; otherwise it answers with the processed normalized results and their snapshots, and appends those snapshots to the session's list |

## Left out

- The `not isinstance(text, str)` branch of `extract_final_result` (returning `str(text)`): the model's input is a string.
- Case folding: `IGNORECASE` is modelled for ASCII letters only. Python also folds `ſ` (U+017F) to `s` and the Kelvin sign (U+212A) to `k`, which `Subtask` contains. A header spelled with those characters is not matched by the model.
- ResultExtraction.ExtractFinalResult: its contract states only the shape of the result. What it returns on each path is stated by the path lemmas in the table.
- AnsiEscapes.StripAnsiCodes: its contract states only that the text does not grow, and that nothing changes when nothing is deleted. What it deletes is stated by the lemmas in the table.
- Strings are sequences of Unicode scalar values (Dafny's `char`). Python `str` can also hold lone surrogates U+D800..U+DFFF; those are not modelled, and neither are byte-level encodings, since both functions work on `str`.
- Numbers are unbounded integers. Floats in a search answer are not modelled: their only effect here is their truthiness as a URL value.
- The snapshot store is a total function. Two behaviours of the real store are therefore not modelled:
  - `snapshot_url` raises for a truthy URL that is not a string, because it hashes `url.encode(...)` outside its `try`.
  - It stamps each call with the current time, so two calls with the same URL can differ.
- Aliasing: in the source, a dict kept by normalization is the same object as the one in the search answer. Setting `"snapshot_meta"` therefore also changes the caller's answer, and a dict listed twice is updated twice in place. The model works on values.
- The agent, workforce, prompt and LLM client code around these functions, and `stock_utils.py`, are not part of this model.

=== FILE: ansi.dfy ===
/**
 * `strip_ansi_codes`: one left-to-right pass of `re.sub` with the pattern
 * `\x1B(?:[@-Z\\-_]|\[[0-?]*[ -/]*[@-~])`, which deletes the two-character
 * escape sequences of ECMA-48 section 5.3 (ESC followed by a byte in
 * 0x40-0x5A or 0x5C-0x5F) and the control sequences of ECMA-48 section 5.4
 * (ESC `[`, parameter bytes, intermediate bytes, one final byte).
 *
 * Only the parameter (0x30-0x3F), intermediate (0x20-0x2F) and final
 * (0x40-0x7E) classes are pairwise disjoint; the Fe class 0x40-0x5A,
 * 0x5C-0x5F lies inside the final class. The two branches are told apart by
 * the character after ESC, since `[` (0x5B) is not an Fe byte. No class
 * contains ESC, so the pattern matches at most one prefix at each position
 * and the regex engine never needs to backtrack.
 */
module AnsiEscapes {
  import opened Wrappers
  import opened Text

  const Esc: char := 27 as char

  /** `[@-Z\\-_]`: final bytes of a two-character escape (`[` excluded). */
  predicate IsFeByte(c: char) {
    var n := c as int;
    0x40 <= n <= 0x5A || 0x5C <= n <= 0x5F
  }

  /** `[0-?]`: parameter bytes of a control sequence. */
  predicate IsParameterByte(c: char) {
    0x30 <= c as int <= 0x3F
  }

  /** `[ -/]`: intermediate bytes of a control sequence. */
  predicate IsIntermediateByte(c: char) {
    0x20 <= c as int <= 0x2F
  }

  /** `[@-~]`: the final byte of a control sequence. */
  predicate IsFinalByte(c: char) {
    0x40 <= c as int <= 0x7E
  }

  /** ESC followed by one Fe byte. */
  predicate IsFeEscape(e: string) {
    |e| == 2 && e[0] == Esc && IsFeByte(e[1])
  }

  /** ESC `[`, parameter bytes, then intermediate bytes, then one final byte. */
  predicate IsControlSequence(e: string) {
    && |e| >= 3 && e[0] == Esc && e[1] == '[' && IsFinalByte(e[|e| - 1])
    && (forall i :: 2 <= i < |e| - 1 ==> IsParameterByte(e[i]) || IsIntermediateByte(e[i]))
    && (forall i, j :: 2 <= i < j < |e| - 1 && IsIntermediateByte(e[i]) ==> IsIntermediateByte(e[j]))
  }

  /** A string the pattern matches as a whole. */
  predicate IsEscapeSequence(e: string) {
    IsFeEscape(e) || IsControlSequence(e)
  }

  /** The end of the run of parameter bytes (`[0-?]*`) that starts at `i`: the run is as long as it can be. */
  function ParameterEnd(s: string, i: nat): (j: nat)
    requires i <= |s|
    ensures i <= j <= |s|
    ensures forall k :: i <= k < j ==> IsParameterByte(s[k])
    ensures j == |s| || !IsParameterByte(s[j])
    decreases |s| - i
  {
    if i == |s| || !IsParameterByte(s[i]) then i else ParameterEnd(s, i + 1)
  }

  /** The end of the run of intermediate bytes (`[ -/]*`) that starts at `i`: the run is as long as it can be. */
  function IntermediateEnd(s: string, i: nat): (j: nat)
    requires i <= |s|
    ensures i <= j <= |s|
    ensures forall k :: i <= k < j ==> IsIntermediateByte(s[k])
    ensures j == |s| || !IsIntermediateByte(s[j])
    decreases |s| - i
  {
    if i == |s| || !IsIntermediateByte(s[i]) then i else IntermediateEnd(s, i + 1)
  }

  /** The length of the pattern's match at the start of `s`, which begins with ESC. */
  function EscapeLength(s: string): (n: Option<nat>)
    requires |s| > 0 && s[0] == Esc
    ensures n.Some? ==> 2 <= n.value <= |s|
  {
    if |s| >= 2 && IsFeByte(s[1]) then Some(2)
    else if |s| >= 2 && s[1] == '[' then
      var p := ParameterEnd(s, 2);
      var q := IntermediateEnd(s, p);
      if q < |s| && IsFinalByte(s[q]) then Some(q + 1) else None
    else None
  }

  /**
   * The scanner agrees with the declarative definition: what it measures is an
   * escape sequence, and every escape sequence that starts `s` is what it measures.
   */
  lemma EscapeLengthCorrect(s: string)
    requires |s| > 0 && s[0] == Esc
    ensures EscapeLength(s).Some? ==> IsEscapeSequence(s[..EscapeLength(s).value])
    ensures forall n :: 0 < n <= |s| && IsEscapeSequence(s[..n]) ==> EscapeLength(s) == Some(n)
  {
    if |s| >= 2 && !IsFeByte(s[1]) && s[1] == '[' {
      var p := ParameterEnd(s, 2);
      var q := IntermediateEnd(s, p);
      if q < |s| && IsFinalByte(s[q]) {
        var e := s[..q + 1];
        assert forall i :: 2 <= i < |e| - 1 ==> e[i] == s[i];
      }
      forall n | 0 < n <= |s| && IsEscapeSequence(s[..n]) ensures EscapeLength(s) == Some(n) {
        ControlSequenceMeasured(s, n, p, q);
      }
    }
  }

  lemma ControlSequenceMeasured(s: string, n: nat, p: nat, q: nat)
    requires 0 < n <= |s| && s[0] == Esc && |s| >= 2 && s[1] == '['
    requires IsControlSequence(s[..n])
    requires p == ParameterEnd(s, 2) && q == IntermediateEnd(s, p)
    ensures q == n - 1
  {
    var e := s[..n];
    assert forall i :: 0 <= i < n ==> e[i] == s[i];
    assert IsFinalByte(s[n - 1]);
    assert p <= n - 1;
    forall k | p <= k < n - 1 ensures IsIntermediateByte(s[k]) {
      assert IsIntermediateByte(s[p]);
    }
  }

  /** `re.sub(pattern, "", s)`: scan left to right, drop every match, keep every other character. */
  function StripAnsiCodes(s: string): (r: string)
    ensures |r| <= |s|
    ensures |r| == |s| ==> r == s
    decreases |s|
  {
    if |s| == 0 then []
    else if s[0] == Esc && EscapeLength(s).Some? then StripAnsiCodes(s[EscapeLength(s).value..])
    else [s[0]] + StripAnsiCodes(s[1..])
  }

  /** Stripping only deletes: the result is the input with some characters left out. */
  lemma {:induction false} StripIsSubsequence(s: string)
    ensures IsSubsequence(StripAnsiCodes(s), s)
    decreases |s|
  {
    if |s| > 0 {
      if s[0] == Esc && EscapeLength(s).Some? {
        var n := EscapeLength(s).value;
        StripIsSubsequence(s[n..]);
        SubsequenceOfSuffix(StripAnsiCodes(s[n..]), s, n);
      } else {
        var rest := StripAnsiCodes(s[1..]);
        StripIsSubsequence(s[1..]);
        assert ([s[0]] + rest)[1..] == rest;
      }
    }
  }

  /** ESC never occurs inside an escape sequence after its first character. */
  lemma EscapeHasOneEsc(e: string)
    requires IsEscapeSequence(e)
    ensures forall i :: 1 <= i < |e| ==> e[i] != Esc
  {
  }

  /** A string without ESC passes through unchanged. */
  lemma {:induction false} NoEscapeUnchanged(s: string)
    requires forall i :: 0 <= i < |s| ==> s[i] != Esc
    ensures StripAnsiCodes(s) == s
    decreases |s|
  {
    if |s| > 0 {
      NoEscapeUnchanged(s[1..]);
    }
  }

  /** An escape sequence at the front is deleted and scanning resumes right after it. */
  lemma DropsEscapeSequence(e: string, t: string)
    requires IsEscapeSequence(e)
    ensures StripAnsiCodes(e + t) == StripAnsiCodes(t)
  {
    var s := e + t;
    assert s[..|e|] == e;
    EscapeLengthCorrect(s);
    assert s[|e|..] == t;
  }

  /** A lone ESC, or ESC `[` followed only by parameter and intermediate bytes, is kept as it is. */
  lemma KeepsUnterminated(e: string)
    requires |e| >= 1 && e[0] == Esc
    requires |e| == 1 || (e[1] == '[' && forall i :: 2 <= i < |e| ==> IsParameterByte(e[i]) || IsIntermediateByte(e[i]))
    ensures StripAnsiCodes(e) == e
  {
    forall n | 0 < n <= |e|
      ensures !IsEscapeSequence(e[..n])
    {
      assert e[..n][n - 1] == e[n - 1];
    }
    EscapeLengthCorrect(e);
    NoEscapeUnchanged(e[1..]);
  }

  /** An ESC that follows `s` cuts every escape sequence starting in `s` off at the end of `s`. */
  lemma EscapeLengthBeforeEsc(s: string, t: string)
    requires |s| > 0 && s[0] == Esc
    requires |t| == 0 || t[0] == Esc
    ensures EscapeLength(s + t) == EscapeLength(s)
  {
    var u := s + t;
    EscapeLengthCorrect(s);
    EscapeLengthCorrect(u);
    if EscapeLength(u).Some? {
      var n := EscapeLength(u).value;
      assert n <= |s| || u[..n][|s|] == Esc;
      EscapeHasOneEsc(u[..n]);
      assert u[..n] == s[..n];
    }
    if EscapeLength(s).Some? {
      var n := EscapeLength(s).value;
      assert u[..n] == s[..n];
    }
  }

  /** Cutting the text just before an ESC commutes with stripping. */
  lemma {:induction false} StripSplitsBeforeEsc(s: string, t: string)
    requires |t| == 0 || t[0] == Esc
    ensures StripAnsiCodes(s + t) == StripAnsiCodes(s) + StripAnsiCodes(t)
    decreases |s|
  {
    if |s| == 0 {
      assert s + t == t;
    } else {
      if s[0] == Esc {
        EscapeLengthBeforeEsc(s, t);
      }
      if s[0] == Esc && EscapeLength(s).Some? {
        var n := EscapeLength(s).value;
        StripSplitsBeforeEsc(s[n..], t);
        SplitDropStep(s, t, n);
      } else {
        StripSplitsBeforeEsc(s[1..], t);
        SplitKeepStep(s, t);
      }
    }
  }

  /** The inductive step of `StripSplitsBeforeEsc` when an escape sequence of length `n` starts `s`. */
  lemma SplitDropStep(s: string, t: string, n: nat)
    requires |s| > 0 && s[0] == Esc && EscapeLength(s) == Some(n) && EscapeLength(s + t) == Some(n)
    requires StripAnsiCodes(s[n..] + t) == StripAnsiCodes(s[n..]) + StripAnsiCodes(t)
    ensures StripAnsiCodes(s + t) == StripAnsiCodes(s) + StripAnsiCodes(t)
  {
    DroppedFirstAppend(s, t, n);
    DroppedFirst(s, n);
  }

  /** The inductive step of `StripSplitsBeforeEsc` when no escape sequence starts `s`. */
  lemma SplitKeepStep(s: string, t: string)
    requires |s| > 0 && !(s[0] == Esc && EscapeLength(s).Some?)
    requires !(s[0] == Esc && EscapeLength(s + t).Some?)
    requires StripAnsiCodes(s[1..] + t) == StripAnsiCodes(s[1..]) + StripAnsiCodes(t)
    ensures StripAnsiCodes(s + t) == StripAnsiCodes(s) + StripAnsiCodes(t)
  {
    KeptFirstAppend(s, t);
    KeptFirst(s);
    ConcatAssoc([s[0]], StripAnsiCodes(s[1..]), StripAnsiCodes(t));
  }

  /** An escape sequence of length `n` at the front of `s + t` is dropped and the scan resumes after it. */
  lemma DroppedFirstAppend(s: string, t: string, n: nat)
    requires |s| > 0 && s[0] == Esc && EscapeLength(s + t) == Some(n) && n <= |s|
    ensures StripAnsiCodes(s + t) == StripAnsiCodes(s[n..] + t)
  {
    assert (s + t)[0] == s[0];
    assert (s + t)[n..] == s[n..] + t;
  }

  /** An escape sequence of length `n` at the front of `s` is dropped and the scan resumes after it. */
  lemma DroppedFirst(s: string, n: nat)
    requires |s| > 0 && s[0] == Esc && EscapeLength(s) == Some(n)
    ensures StripAnsiCodes(s) == StripAnsiCodes(s[n..])
  {
  }

  /** Where no escape sequence starts `s + t`, its first character is kept and the scan moves on by one. */
  lemma KeptFirstAppend(s: string, t: string)
    requires |s| > 0 && !(s[0] == Esc && EscapeLength(s + t).Some?)
    ensures StripAnsiCodes(s + t) == [s[0]] + StripAnsiCodes(s[1..] + t)
  {
    assert (s + t)[0] == s[0];
    assert (s + t)[1..] == s[1..] + t;
  }

  /** Where no escape sequence starts `s`, its first character is kept and the scan moves on by one. */
  lemma KeptFirst(s: string)
    requires |s| > 0 && !(s[0] == Esc && EscapeLength(s).Some?)
    ensures StripAnsiCodes(s) == [s[0]] + StripAnsiCodes(s[1..])
  {
  }

  /** A trailing ESC is always kept. */
  lemma KeepsTrailingEsc(s: string)
    ensures StripAnsiCodes(s + [Esc]) == StripAnsiCodes(s) + [Esc]
  {
    StripSplitsBeforeEsc(s, [Esc]);
    KeepsUnterminated([Esc]);
  }

  /**
   * The pass is not idempotent: deleting a sequence can bring an ESC next to a
   * byte that makes a new sequence.
   */
  lemma NotIdempotent()
    ensures StripAnsiCodes([Esc, Esc, '[', 'm', 'A']) == [Esc, 'A']
    ensures StripAnsiCodes([Esc, 'A']) == []
  {
    var s := [Esc, Esc, '[', 'm', 'A'];
    assert EscapeLength(s).None?;
    assert s[1..] == [Esc, '[', 'm', 'A'];
    DropsEscapeSequence([Esc, '[', 'm'], ['A']);
    assert [Esc, '[', 'm'] + ['A'] == s[1..];
    NoEscapeUnchanged(['A']);
    DropsEscapeSequence([Esc, 'A'], []);
    assert [Esc, 'A'] + [] == [Esc, 'A'];
  }

  /** One step of the scan: text kept as it is, or a deleted escape sequence. */
  datatype Piece = Plain(c: char) | Escape(code: string)

  /** No escape sequence is a prefix of `s`. */
  ghost predicate NoEscapeStarts(s: string) {
    forall n :: 0 < n <= |s| ==> !IsEscapeSequence(s[..n])
  }

  /**
   * `pieces` is the leftmost-first division of `s`: each piece is an escape sequence
   * at the current position or, where none starts, a single kept character.
   */
  ghost predicate IsScan(s: string, pieces: seq<Piece>)
    decreases |pieces|
  {
    if |pieces| == 0 then |s| == 0
    else match pieces[0]
      case Escape(e) => IsEscapeSequence(e) && |e| <= |s| && s[..|e|] == e && IsScan(s[|e|..], pieces[1..])
      case Plain(c) => |s| > 0 && s[0] == c && NoEscapeStarts(s) && IsScan(s[1..], pieces[1..])
  }

  /** The characters a division keeps. */
  function Kept(pieces: seq<Piece>): string {
    if |pieces| == 0 then []
    else (match pieces[0] case Plain(c) => [c] case Escape(_) => []) + Kept(pieces[1..])
  }

  /** Stripping keeps exactly the plain characters of a leftmost-first division and drops exactly its escape sequences. */
  lemma {:induction false} StripKeepsScanText(s: string, pieces: seq<Piece>)
    requires IsScan(s, pieces)
    ensures StripAnsiCodes(s) == Kept(pieces)
    decreases |pieces|
  {
    if |pieces| > 0 {
      match pieces[0]
      case Escape(e) =>
        EscapeLengthCorrect(s);
        assert EscapeLength(s) == Some(|e|);
        StripKeepsScanText(s[|e|..], pieces[1..]);
      case Plain(c) =>
        if c == Esc {
          EscapeLengthCorrect(s);
        }
        StripKeepsScanText(s[1..], pieces[1..]);
    }
  }

  /** Every string has a leftmost-first division. */
  lemma {:induction false} ScanExists(s: string)
    ensures exists pieces :: IsScan(s, pieces)
    decreases |s|
  {
    if |s| == 0 {
      assert IsScan(s, []);
    } else if s[0] == Esc && EscapeLength(s).Some? {
      var n := EscapeLength(s).value;
      EscapeLengthCorrect(s);
      ScanExists(s[n..]);
      var rest :| IsScan(s[n..], rest);
      var pieces := [Escape(s[..n])] + rest;
      assert pieces[1..] == rest;
      assert IsScan(s, pieces);
    } else {
      if s[0] == Esc {
        EscapeLengthCorrect(s);
      }
      assert NoEscapeStarts(s);
      ScanExists(s[1..]);
      var rest :| IsScan(s[1..], rest);
      var pieces := [Plain(s[0])] + rest;
      assert pieces[1..] == rest;
      assert IsScan(s, pieces);
    }
  }
}

=== FILE: extract_result.dfy ===
/**
 * `extract_final_result`: the text of the last result block of an agent
 * transcript. The function exists three times in the repository with the same
 * body, so this one definition stands for all three.
 */
module ResultExtraction {
  import opened Wrappers
  import opened Text
  import opened SubtaskHeader

  /** The literal that opens a result block. */
  const Marker: string := "Result ---"

  /** Where the returned block starts after the marker at `last`: one past the next newline, or right after the marker. */
  function StartAfterMarker(text: string, last: nat): (k: nat)
    requires last + |Marker| <= |text|
    ensures last + |Marker| <= k <= |text|
  {
    match FindChar(text, '\n', last + |Marker|)
    case Some(nl) => nl + 1
    case None => last + |Marker|
  }

  /**
   * The block starts just past the first newline after the marker, or, when the
   * rest of the text has no newline, right after the marker.
   */
  lemma StartAfterMarkerSpec(text: string, last: nat)
    requires last + |Marker| <= |text|
    ensures var k := StartAfterMarker(text, last);
      && (forall i :: last + |Marker| <= i < k - 1 ==> text[i] != '\n')
      && (k > last + |Marker| ==> text[k - 1] == '\n')
      && (k == last + |Marker| <==> forall i :: last + |Marker| <= i < |text| ==> text[i] != '\n')
  {
    FindCharSpec(text, '\n', last + |Marker|);
  }

  /**
   * Where the returned block starts: after the line holding the last marker; failing
   * that, at the end of the last subtask header; failing that, at 0, so that the
   * whole text is stripped.
   */
  function BlockStart(text: string): (k: nat)
    ensures k <= |text|
    ensures RFind(text, Marker).Some? ==> RFind(text, Marker).value + |Marker| <= k
    ensures k == 0 <==> RFind(text, Marker).None? && LastMatchFrom(text, 0).None?
  {
    match RFind(text, Marker)
    case Some(last) => StartAfterMarker(text, last)
    case None =>
      match LastMatchFrom(text, 0)
      case Some(m) => m.1
      case None => 0
  }

  function ExtractFinalResult(text: string): (r: string)
    ensures IsStripped(r)
    ensures |r| <= |text|
  {
    Strip(text[BlockStart(text)..])
  }

  /** A stripped suffix of `text` starting at `k` is a contiguous piece of `text` lying at or after `k`. */
  lemma StrippedSuffixLocation(text: string, k: nat)
    requires k <= |text|
    ensures exists i: nat :: k <= i && OccursAt(text, Strip(text[k..]), i)
  {
    var b := StripBounds(text[k..]);
    assert Strip(text[k..]) == text[k..][b.0..b.1] == text[k + b.0..k + b.1];
    OccursAtSlice(text, Strip(text[k..]), k + b.0);
  }

  /** The result is always a contiguous substring of the transcript. */
  lemma ResultIsSubstring(text: string)
    ensures Contains(text, ExtractFinalResult(text))
  {
    match RFind(text, Marker)
    case Some(last) => StrippedSuffixLocation(text, StartAfterMarker(text, last));
    case None =>
      match LastMatchFrom(text, 0)
      case Some(m) => StrippedSuffixLocation(text, m.1);
      case None => StrippedSuffixLocation(text, 0);
  }

  /** No piece of `text` that lies strictly after the last marker can contain the marker. */
  lemma NoMarkerAfterLast(text: string, last: nat, k: nat)
    requires OccursAt(text, Marker, last)
    requires forall j: nat :: last < j ==> !OccursAt(text, Marker, j)
    requires last < k <= |text|
    ensures !Contains(Strip(text[k..]), Marker)
  {
    var r := Strip(text[k..]);
    var b := StripBounds(text[k..]);
    assert r == text[k..][b.0..b.1];
    if p: nat :| OccursAt(r, Marker, p) {
      OccursInSlice(text[k..], b.0, b.1, Marker, p);
      assert text[k..|text|] == text[k..];
      OccursInSlice(text, k, |text|, Marker, b.0 + p);
      assert false;
    }
  }

  /** When the transcript has a "Result ---" marker, the returned block never contains one. */
  lemma MarkerPathResultHasNoMarker(text: string)
    requires Contains(text, Marker)
    ensures !Contains(ExtractFinalResult(text), Marker)
  {
    RFindSpec(text, Marker);
    var last := RFind(text, Marker).value;
    NoMarkerAfterLast(text, last, StartAfterMarker(text, last));
  }

  /** With the marker last at `last` and a newline at `nl` after it, the block is the stripped text after that newline. */
  lemma MarkerFollowedByNewline(text: string, last: nat, nl: nat)
    requires OccursAt(text, Marker, last)
    requires forall j: nat :: last < j ==> !OccursAt(text, Marker, j)
    requires last + |Marker| <= nl < |text| && text[nl] == '\n'
    requires forall i :: last + |Marker| <= i < nl ==> text[i] != '\n'
    ensures ExtractFinalResult(text) == Strip(text[nl + 1..])
  {
    RFindIsLastOccurrence(text, Marker, last);
    FindCharIsFirst(text, '\n', last + |Marker|, nl);
    assert BlockStart(text) == nl + 1;
  }

  /** With the marker last at `last` and no newline after it, the block is the stripped text right after the marker. */
  lemma MarkerWithoutNewline(text: string, last: nat)
    requires OccursAt(text, Marker, last)
    requires forall j: nat :: last < j ==> !OccursAt(text, Marker, j)
    requires forall i :: last + |Marker| <= i < |text| ==> text[i] != '\n'
    ensures ExtractFinalResult(text) == Strip(text[last + |Marker|..])
  {
    RFindIsLastOccurrence(text, Marker, last);
  }

  /**
   * The marker takes priority over subtask headers: once the marker occurs in `t`,
   * any text in front of `t`, subtask headers included, leaves the result unchanged.
   */
  lemma MarkerPriority(h: string, t: string)
    requires Contains(t, Marker)
    ensures ExtractFinalResult(h + t) == ExtractFinalResult(t)
  {
    MarkerStartShifts(h, t);
    DropAfterPrefix(h, t, BlockStart(t));
    SameBlockSameResult(h + t, t, |h| + BlockStart(t), BlockStart(t));
  }

  /** Two transcripts whose blocks start at the same text yield the same result. */
  lemma SameBlockSameResult(x: string, y: string, kx: nat, ky: nat)
    requires BlockStart(x) == kx && BlockStart(y) == ky
    requires x[kx..] == y[ky..]
    ensures ExtractFinalResult(x) == ExtractFinalResult(y)
  {
    ExtractFrom(x, kx);
    ExtractFrom(y, ky);
  }

  /** Dropping a prefix and then some of `t` leaves what dropping that much of `t` leaves. */
  lemma DropAfterPrefix(h: string, t: string, k: nat)
    requires k <= |t|
    ensures (h + t)[|h| + k..] == t[k..]
  {
  }

  /** The result is the stripped text from wherever the block starts. */
  lemma ExtractFrom(text: string, k: nat)
    requires BlockStart(text) == k
    ensures ExtractFinalResult(text) == Strip(text[k..])
  {
  }

  lemma MarkerStartShifts(h: string, t: string)
    requires Contains(t, Marker)
    ensures BlockStart(h + t) == |h| + BlockStart(t)
  {
    RFindSpec(t, Marker);
    RFindShift(h, t, Marker);
    FindCharShift(h, t, '\n', RFind(t, Marker).value + |Marker|);
  }

  /**
   * Without the marker, a subtask header decides: the block is the stripped text after
   * the end of the last non-overlapping header match, which ends in a newline.
   */
  lemma SubtaskHeaderPath(text: string, s: nat, e: nat)
    requires !Contains(text, Marker)
    requires LastMatchFrom(text, 0) == Some((s, e))
    ensures ExtractFinalResult(text) == Strip(text[e..])
    ensures 0 < e <= |text| && text[e - 1] == '\n'
  {
    RFindSpec(text, Marker);
    HeaderEndsLine(text, s, e);
    HeaderBlockStart(text, s, e);
  }

  /** Without the marker, the block starts where the last subtask header ends. */
  lemma HeaderBlockStart(text: string, s: nat, e: nat)
    requires RFind(text, Marker).None?
    requires LastMatchFrom(text, 0) == Some((s, e))
    ensures BlockStart(text) == e
  {
  }

  /** A subtask header ends just after the newline that closes it. */
  lemma HeaderEndsLine(text: string, s: nat, e: nat)
    requires LastMatchFrom(text, 0) == Some((s, e))
    ensures 0 < e <= |text| && text[e - 1] == '\n'
  {
  }

  /** With neither the marker nor any subtask header, the whole text is the block. */
  lemma FallbackWholeText(text: string)
    requires !Contains(text, Marker)
    requires forall k :: 0 <= k <= |text| ==> MatchAt(text, k).None?
    ensures ExtractFinalResult(text) == Strip(text)
  {
    RFindSpec(text, Marker);
    NoMatchesIff(text, 0);
    assert text[0..] == text;
  }
}

=== FILE: json.dfy ===
/**
 * JSON-like values as the search tool returns them: Python dicts, lists, strings,
 * numbers, booleans and None. A dict is an association list in insertion order.
 */
module JsonValues {
  import opened Wrappers

  datatype Json =
    | Null
    | Bool(b: bool)
    | Number(n: int)
    | Str(s: string)
    | List(items: seq<Json>)
    | Object(fields: seq<(string, Json)>)

  /** Python truthiness: `None`, `False`, zero and empty containers are false. */
  predicate Truthy(v: Json) {
    match v
    case Null => false
    case Bool(b) => b
    case Number(n) => n != 0
    case Str(s) => |s| > 0
    case List(items) => |items| > 0
    case Object(fields) => |fields| > 0
  }

  /** Every key occurs at most once, as in a Python dict. */
  predicate UniqueKeys(fields: seq<(string, Json)>) {
    forall i, j :: 0 <= i < j < |fields| ==> fields[i].0 != fields[j].0
  }

  /** Position of the first entry with key `key`. */
  function KeyIndex(fields: seq<(string, Json)>, key: string): (r: Option<nat>)
    ensures r.Some? ==> r.value < |fields| && fields[r.value].0 == key
    decreases |fields|
  {
    if |fields| == 0 then None
    else if fields[0].0 == key then Some(0)
    else match KeyIndex(fields[1..], key)
      case None => None
      case Some(i) => Some(i + 1)
  }

  /** `KeyIndex` finds the first entry with the key, and finds none exactly when no entry has it. */
  lemma {:induction false} KeyIndexFirst(fields: seq<(string, Json)>, key: string)
    ensures KeyIndex(fields, key).Some? ==> forall i :: 0 <= i < KeyIndex(fields, key).value ==> fields[i].0 != key
    ensures KeyIndex(fields, key).None? <==> forall i :: 0 <= i < |fields| ==> fields[i].0 != key
    decreases |fields|
  {
    if |fields| > 0 {
      KeyIndexFirst(fields[1..], key);
      if fields[0].0 != key {
        assert forall i :: 1 <= i < |fields| ==> fields[i] == fields[1..][i - 1];
      }
    }
  }

  /** `key in d` */
  predicate HasKey(fields: seq<(string, Json)>, key: string) {
    KeyIndex(fields, key).Some?
  }

  /** `d.get(key)`, with `None` for a missing key. */
  function Lookup(fields: seq<(string, Json)>, key: string): (r: Option<Json>)
    ensures r.Some? <==> HasKey(fields, key)
  {
    match KeyIndex(fields, key)
    case None => None
    case Some(i) => Some(fields[i].1)
  }

  /**
   * `d[key] = v`: an existing entry keeps its place and takes the new value,
   * a new key goes at the end.
   */
  function Assign(fields: seq<(string, Json)>, key: string, v: Json): (r: seq<(string, Json)>)
    ensures |r| == |fields| || |r| == |fields| + 1
  {
    match KeyIndex(fields, key)
    case Some(i) => fields[i := (key, v)]
    case None => fields + [(key, v)]
  }

  /**
   * After `d[key] = v` the key maps to `v`, every other key to what it mapped to
   * before; an existing key keeps its place and a new one goes at the end.
   */
  lemma AssignSpec(fields: seq<(string, Json)>, key: string, v: Json)
    ensures Lookup(Assign(fields, key, v), key) == Some(v)
    ensures forall k :: k != key ==> Lookup(Assign(fields, key, v), k) == Lookup(fields, k)
    ensures HasKey(fields, key) ==> var r := Assign(fields, key, v);
      |r| == |fields| && forall i :: 0 <= i < |r| ==> r[i].0 == fields[i].0
    ensures !HasKey(fields, key) ==> Assign(fields, key, v) == fields + [(key, v)]
  {
    match KeyIndex(fields, key)
    case Some(i) =>
      KeyIndexAfterUpdate(fields, i, key, v);
    case None =>
      KeyIndexAfterAppend(fields, key, v);
  }

  /** The first entry carrying a key is the one `KeyIndex` finds. */
  lemma KeyIndexIs(fields: seq<(string, Json)>, key: string, i: nat)
    requires i < |fields| && fields[i].0 == key
    requires forall j :: 0 <= j < i ==> fields[j].0 != key
    ensures KeyIndex(fields, key) == Some(i)
  {
    KeyIndexFirst(fields, key);
  }

  /** Two lists with the key at the same positions find it at the same place. */
  lemma KeyIndexSamePositions(f: seq<(string, Json)>, g: seq<(string, Json)>, key: string)
    requires |f| <= |g|
    requires forall j :: 0 <= j < |f| ==> (f[j].0 == key <==> g[j].0 == key)
    requires forall j :: |f| <= j < |g| ==> g[j].0 != key
    ensures KeyIndex(f, key) == KeyIndex(g, key)
  {
    KeyIndexFirst(f, key);
    KeyIndexFirst(g, key);
    match KeyIndex(f, key)
    case Some(j) =>
      KeyIndexIs(g, key, j);
    case None =>
      assert forall j :: 0 <= j < |g| ==> g[j].0 != key;
  }

  lemma KeyIndexAfterUpdate(fields: seq<(string, Json)>, i: nat, key: string, v: Json)
    requires KeyIndex(fields, key) == Some(i)
    ensures KeyIndex(fields[i := (key, v)], key) == Some(i)
    ensures forall k :: k != key ==> KeyIndex(fields[i := (key, v)], k) == KeyIndex(fields, k)
  {
    var r := fields[i := (key, v)];
    KeyIndexSamePositions(fields, r, key);
    forall k | k != key
      ensures KeyIndex(r, k) == KeyIndex(fields, k)
    {
      KeyIndexSamePositions(fields, r, k);
    }
  }

  lemma KeyIndexAfterAppend(fields: seq<(string, Json)>, key: string, v: Json)
    requires KeyIndex(fields, key).None?
    ensures KeyIndex(fields + [(key, v)], key) == Some(|fields|)
    ensures forall k :: k != key ==> KeyIndex(fields + [(key, v)], k) == KeyIndex(fields, k)
  {
    var r := fields + [(key, v)];
    KeyIndexFirst(fields, key);
    assert forall j :: 0 <= j < |fields| ==> r[j] == fields[j];
    KeyIndexIs(r, key, |fields|);
    forall k | k != key
      ensures KeyIndex(r, k) == KeyIndex(fields, k)
    {
      KeyIndexSamePositions(fields, r, k);
    }
  }

  /** Assignment keeps the keys of a dict unique. */
  lemma AssignKeepsKeysUnique(fields: seq<(string, Json)>, key: string, v: Json)
    requires UniqueKeys(fields)
    ensures UniqueKeys(Assign(fields, key, v))
  {
    var r := Assign(fields, key, v);
    AssignSpec(fields, key, v);
    KeyIndexFirst(fields, key);
    if !HasKey(fields, key) {
      forall i, j | 0 <= i < j < |r|
        ensures r[i].0 != r[j].0
      {
        if j == |fields| {
          assert r[i] == fields[i];
        }
      }
    }
  }

  /**
   * Assigning the same key twice leaves what assigning the second value once
   * leaves. The tool assigns `snapshots` once into each result; when the same
   * dict object appears twice in the results list, Python's aliasing would
   * make both assignments land on one dict, and this is the fact that says the
   * later one wins. Aliasing itself is not modelled.
   */
  lemma AssignOverwrites(fields: seq<(string, Json)>, key: string, v: Json, w: Json)
    ensures Assign(Assign(fields, key, v), key, w) == Assign(fields, key, w)
  {
    var once := Assign(fields, key, v);
    match KeyIndex(fields, key)
    case Some(i) =>
      KeyIndexAfterUpdate(fields, i, key, v);
    case None =>
      KeyIndexAfterAppend(fields, key, v);
      assert once[|fields| := (key, w)] == fields + [(key, w)];
  }

  /** Iteration over a value: the items of a list, the keys of a dict, the characters of a string. */
  function Iterate(v: Json): (r: Result<seq<Json>>)
    ensures r.Failure? <==> v.Null? || v.Bool? || v.Number?
    ensures v.List? ==> r == Success(v.items)
    ensures v.Object? ==> r.Success? && |r.value| == |v.fields|
    ensures v.Object? ==> forall i :: 0 <= i < |v.fields| ==> r.value[i] == Str(v.fields[i].0)
    ensures v.Str? ==> r.Success? && |r.value| == |v.s|
    ensures v.Str? ==> forall i :: 0 <= i < |v.s| ==> r.value[i] == Str([v.s[i]])
  {
    match v
    case List(items) => Success(items)
    case Object(fields) => Success(seq(|fields|, i requires 0 <= i < |fields| => Str(fields[i].0)))
    case Str(s) => Success(seq(|s|, i requires 0 <= i < |s| => Str([s[i]])))
    case _ => Failure("TypeError: object is not iterable")
  }
}

=== FILE: snapshot_tool.dfy ===
/**
 * The snapshot-taking wrapper around the web search tool of the finance agent:
 * it picks the candidate results out of whatever the search returned, keeps the
 * ones that carry a URL, asks the snapshot store for a snapshot of each truthy
 * URL and records the snapshot's metadata on the result it belongs to.
 *
 * The snapshot store is a parameter `fetch`: for a URL it yields a snapshot or
 * nothing, as `SnapshotManager.snapshot_url` does.
 */
module SnapshotTool {
  import opened Wrappers
  import opened Text
  import opened JsonValues

  /** A captured page: where it came from, when, where its text lives and its hash if one was computed. */
  datatype Snapshot = Snapshot(url: string, fetchedAt: string, contentPath: string, contentHash: Option<string>)

  /** The snapshot store: a snapshot of the page at a URL, or nothing when it could not be fetched. */
  type Fetcher = Json -> Option<Snapshot>

  const UrlKey: string := "url"
  const MetaKey: string := "snapshot_meta"

  /** The dict the tool reports for a snapshot. */
  function SnapshotMeta(snap: Snapshot): (m: Json)
    ensures m.Object? && |m.fields| == 4 && UniqueKeys(m.fields)
  {
    Object([
      ("url", Str(snap.url)),
      ("fetched_at", Str(snap.fetchedAt)),
      ("content_path", Str(snap.contentPath)),
      ("content_hash", match snap.contentHash case None => Null case Some(h) => Str(h))
    ])
  }

  /** Reads a snapshot back out of its reported dict. */
  function SnapshotFromMeta(m: Json): Option<Snapshot> {
    if !m.Object? then None
    else
      var url := Lookup(m.fields, "url");
      var fetchedAt := Lookup(m.fields, "fetched_at");
      var path := Lookup(m.fields, "content_path");
      var hash := Lookup(m.fields, "content_hash");
      if url.Some? && url.value.Str? && fetchedAt.Some? && fetchedAt.value.Str?
        && path.Some? && path.value.Str? && hash.Some? && (hash.value.Null? || hash.value.Str?)
      then
        Some(Snapshot(url.value.s, fetchedAt.value.s, path.value.s,
          if hash.value.Null? then None else Some(hash.value.s)))
      else None
  }

  /** The reported metadata records every field of the snapshot: it reads back to the same snapshot. */
  lemma MetaRoundTrip(snap: Snapshot)
    ensures SnapshotFromMeta(SnapshotMeta(snap)) == Some(snap)
  {
    var f := SnapshotMeta(snap).fields;
    KeyIndexIs(f, "url", 0);
    KeyIndexIs(f, "fetched_at", 1);
    KeyIndexIs(f, "content_path", 2);
    KeyIndexIs(f, "content_hash", 3);
  }

  /** A dict with a `"url"` key. */
  predicate HasUrl(v: Json) {
    v.Object? && HasKey(v.fields, UrlKey)
  }

  predicate AllHaveUrl(items: seq<Json>) {
    forall i :: 0 <= i < |items| ==> HasUrl(items[i])
  }

  /** A value Python cannot iterate over. */
  predicate IsScalar(v: Json) {
    v.Null? || v.Bool? || v.Number?
  }

  /**
   * The candidate results: the `"results"` entry of a dict that has one, the
   * list itself if the search returned a list, nothing otherwise.
   */
  function Candidates(raw: Json): (r: Result<seq<Json>>)
    ensures r.Failure? <==> raw.Object? && HasKey(raw.fields, "results") && IsScalar(Lookup(raw.fields, "results").value)
    ensures raw.List? ==> r == Success(raw.items)
    ensures !raw.List? && !raw.Object? ==> r == Success([])
    ensures raw.Object? && !HasKey(raw.fields, "results") ==> r == Success([])
    ensures raw.Object? && HasKey(raw.fields, "results") ==> r == Iterate(Lookup(raw.fields, "results").value)
  {
    if raw.Object? && HasKey(raw.fields, "results") then Iterate(Lookup(raw.fields, "results").value)
    else if raw.List? then Success(raw.items)
    else Success([])
  }

  /** One candidate: a dict with a URL is kept as it is, a string starting with `http` becomes `{"url": s}`. */
  function NormalizeItem(item: Json): (r: Option<Json>)
    ensures r.Some? ==> HasUrl(r.value)
    ensures HasUrl(item) ==> r == Some(item)
    ensures item.Str? ==> (r.Some? <==> StartsWith(item.s, "http"))
    ensures item.Str? && r.Some? ==> r.value.fields == [(UrlKey, item)] && Truthy(item)
    ensures !item.Str? && !HasUrl(item) ==> r.None?
  {
    if HasUrl(item) then Some(item)
    else if item.Str? && StartsWith(item.s, "http") then
      var d := Object([(UrlKey, item)]);
      KeyIndexIs(d.fields, UrlKey, 0);
      Some(d)
    else None
  }

  /** The candidates that carry a URL, in order. */
  function Normalize(items: seq<Json>): (norm: seq<Json>)
    ensures |norm| <= |items|
    ensures AllHaveUrl(norm)
    decreases |items|
  {
    if |items| == 0 then []
    else
      var rest := Normalize(items[1..]);
      match NormalizeItem(items[0])
      case None => rest
      case Some(d) => [d] + rest
  }

  /** Normalizing a concatenation normalizes each part. */
  lemma {:induction false} NormalizeAppend(a: seq<Json>, b: seq<Json>)
    ensures Normalize(a + b) == Normalize(a) + Normalize(b)
    decreases |a|
  {
    if |a| == 0 {
      assert a + b == b;
    } else {
      assert (a + b)[0] == a[0];
      assert (a + b)[1..] == a[1..] + b;
      NormalizeAppend(a[1..], b);
    }
  }

  /** Normalized results normalize to themselves. */
  lemma {:induction false} NormalizeIdempotent(items: seq<Json>)
    ensures Normalize(Normalize(items)) == Normalize(items)
    decreases |items|
  {
    if |items| > 0 {
      NormalizeIdempotent(items[1..]);
      var rest := Normalize(items[1..]);
      match NormalizeItem(items[0])
      case None =>
      case Some(d) =>
        assert ([d] + rest)[1..] == rest;
    }
  }

  /** Every dict with a URL among the candidates is among the normalized results. */
  lemma {:induction false} NormalizeKeepsUrlDicts(items: seq<Json>, i: nat)
    requires i < |items| && HasUrl(items[i])
    ensures items[i] in Normalize(items)
    decreases i
  {
    if i > 0 {
      NormalizeKeepsUrlDicts(items[1..], i - 1);
    }
  }

  /** Every URL string among the candidates is among the normalized results as `{"url": s}`. */
  lemma {:induction false} NormalizeKeepsUrlStrings(items: seq<Json>, i: nat)
    requires i < |items| && items[i].Str? && StartsWith(items[i].s, "http")
    ensures Object([(UrlKey, items[i])]) in Normalize(items)
    decreases i
  {
    if i > 0 {
      NormalizeKeepsUrlStrings(items[1..], i - 1);
    }
  }

  /** Every normalized result is a candidate dict with a URL or comes from a candidate URL string. */
  lemma {:induction false} NormalizeOnlyFromCandidates(items: seq<Json>, d: Json)
    requires d in Normalize(items)
    ensures (d in items && HasUrl(d)) || exists s :: Str(s) in items && StartsWith(s, "http") && d == Object([(UrlKey, Str(s))])
    decreases |items|
  {
    var rest := Normalize(items[1..]);
    if d in rest {
      NormalizeOnlyFromCandidates(items[1..], d);
      if d in items[1..] {
        assert d in items;
      } else {
        var s :| Str(s) in items[1..] && StartsWith(s, "http") && d == Object([(UrlKey, Str(s))]);
        assert Str(s) in items;
      }
    } else {
      assert NormalizeItem(items[0]) == Some(d);
      assert items[0] in items;
    }
  }

  /** `v.get(key)` on a dict: the value under `key`, `None` when it is missing. */
  function Get(v: Json, key: string): (r: Json)
    ensures v.Object? && HasKey(v.fields, key) ==> Some(r) == Lookup(v.fields, key)
    ensures !(v.Object? && HasKey(v.fields, key)) ==> r == Null
  {
    if v.Object? then
      match Lookup(v.fields, key)
      case Some(x) => x
      case None => Null
    else Null
  }

  /** What the loop does with one normalized result. */
  datatype Step = Step(item: Json, snap: Option<Snapshot>)

  /**
   * One result: a truthy URL is handed to the store; when it yields a snapshot,
   * its metadata is set under `"snapshot_meta"`.
   */
  function AttachOne(item: Json, fetch: Fetcher): (st: Step)
    ensures st.snap.Some? <==> Truthy(Get(item, UrlKey)) && fetch(Get(item, UrlKey)).Some?
    ensures st.snap.Some? ==> st.snap == fetch(Get(item, UrlKey))
  {
    var url := Get(item, UrlKey);
    if !Truthy(url) then Step(item, None)
    else match fetch(url)
      case None => Step(item, None)
      case Some(snap) => Step(Object(Assign(item.fields, MetaKey, SnapshotMeta(snap))), Some(snap))
  }

  /**
   * The result after its step keeps its URL and every other key; it carries the
   * snapshot's metadata exactly when a snapshot was taken, and is untouched otherwise.
   */
  lemma AttachOneUpdates(item: Json, fetch: Fetcher)
    requires item.Object?
    ensures var st := AttachOne(item, fetch);
      && st.item.Object?
      && (forall k :: k != MetaKey ==> Lookup(st.item.fields, k) == Lookup(item.fields, k))
      && (st.snap.Some? ==> Lookup(st.item.fields, MetaKey) == Some(SnapshotMeta(st.snap.value)))
      && (st.snap.None? ==> st.item == item)
  {
    var url := Get(item, UrlKey);
    if Truthy(url) && fetch(url).Some? {
      AssignSpec(item.fields, MetaKey, SnapshotMeta(fetch(url).value));
    }
  }

  /** The results after the loop, in order. */
  function AttachedResults(norm: seq<Json>, fetch: Fetcher): (results: seq<Json>)
    ensures |results| == |norm|
    decreases |norm|
  {
    if |norm| == 0 then [] else [AttachOne(norm[0], fetch).item] + AttachedResults(norm[1..], fetch)
  }

  /** The snapshots taken for `norm`, in order. */
  function Fetched(norm: seq<Json>, fetch: Fetcher): (snaps: seq<Snapshot>)
    ensures |snaps| <= |norm|
    decreases |norm|
  {
    if |norm| == 0 then [] else FetchedBy(norm[0], fetch) + Fetched(norm[1..], fetch)
  }

  /** The snapshot one result's step took, if any. */
  function FetchedBy(item: Json, fetch: Fetcher): (snaps: seq<Snapshot>)
    ensures |snaps| <= 1
  {
    var st := AttachOne(item, fetch);
    if st.snap.Some? then [st.snap.value] else []
  }

  /** The URLs handed to the store for `norm`, in order: the truthy ones. */
  function QueriedUrls(norm: seq<Json>): (urls: seq<Json>)
    ensures |urls| <= |norm|
    ensures forall j :: 0 <= j < |urls| ==> Truthy(urls[j])
    decreases |norm|
  {
    if |norm| == 0 then [] else QueriedBy(norm[0]) + QueriedUrls(norm[1..])
  }

  /** The URL one result's step hands to the store, if any. */
  function QueriedBy(item: Json): (urls: seq<Json>)
    ensures |urls| <= 1
    ensures forall j :: 0 <= j < |urls| ==> Truthy(urls[j])
  {
    if Truthy(Get(item, UrlKey)) then [Get(item, UrlKey)] else []
  }

  /** The loop over a single result is that result's step. */
  lemma SingleResult(item: Json, fetch: Fetcher)
    ensures AttachedResults([item], fetch) == [AttachOne(item, fetch).item]
    ensures Fetched([item], fetch) == FetchedBy(item, fetch)
    ensures QueriedUrls([item]) == QueriedBy(item)
  {
    assert [item][1..] == [];
  }

  /** Result `i` after the loop is result `i` after its own step. */
  lemma {:induction false} AttachedResultsAt(norm: seq<Json>, fetch: Fetcher, i: nat)
    requires i < |norm|
    ensures AttachedResults(norm, fetch)[i] == AttachOne(norm[i], fetch).item
    decreases i
  {
    if i > 0 {
      AttachedResultsAt(norm[1..], fetch, i - 1);
    }
  }

  /** The front of a nonempty concatenation is the front of its first part. */
  lemma SplitFront(a: seq<Json>, b: seq<Json>)
    requires |a| > 0
    ensures (a + b)[0] == a[0] && (a + b)[1..] == a[1..] + b
  {
  }

  lemma {:induction false} AttachedResultsAppend(a: seq<Json>, b: seq<Json>, fetch: Fetcher)
    ensures AttachedResults(a + b, fetch) == AttachedResults(a, fetch) + AttachedResults(b, fetch)
    decreases |a|
  {
    if |a| == 0 {
      assert a + b == b;
    } else {
      AttachedResultsAppend(a[1..], b, fetch);
      SplitFront(a, b);
      ConcatAssoc([AttachOne(a[0], fetch).item], AttachedResults(a[1..], fetch), AttachedResults(b, fetch));
    }
  }

  lemma {:induction false} FetchedAppend(a: seq<Json>, b: seq<Json>, fetch: Fetcher)
    ensures Fetched(a + b, fetch) == Fetched(a, fetch) + Fetched(b, fetch)
    decreases |a|
  {
    if |a| == 0 {
      assert a + b == b;
    } else {
      FetchedAppend(a[1..], b, fetch);
      SplitFront(a, b);
      ConcatAssoc(FetchedBy(a[0], fetch), Fetched(a[1..], fetch), Fetched(b, fetch));
    }
  }

  lemma {:induction false} QueriedUrlsAppend(a: seq<Json>, b: seq<Json>)
    ensures QueriedUrls(a + b) == QueriedUrls(a) + QueriedUrls(b)
    decreases |a|
  {
    if |a| == 0 {
      assert a + b == b;
    } else {
      QueriedUrlsAppend(a[1..], b);
      SplitFront(a, b);
      ConcatAssoc(QueriedBy(a[0]), QueriedUrls(a[1..]), QueriedUrls(b));
    }
  }

  /** At most one snapshot per URL handed to the store. */
  lemma {:induction false} FetchedAtMostQueried(norm: seq<Json>, fetch: Fetcher)
    ensures |Fetched(norm, fetch)| <= |QueriedUrls(norm)|
    decreases |norm|
  {
    if |norm| > 0 {
      FetchedAtMostQueried(norm[1..], fetch);
    }
  }

  /** Every snapshot taken is the one some result's step took (and recorded, by `AttachOneUpdates`). */
  lemma {:induction false} FetchedAreRecorded(norm: seq<Json>, fetch: Fetcher, j: nat)
    requires j < |Fetched(norm, fetch)|
    ensures exists i :: 0 <= i < |norm| && AttachOne(norm[i], fetch).snap == Some(Fetched(norm, fetch)[j])
    decreases |norm|
  {
    var st := AttachOne(norm[0], fetch);
    var head := FetchedBy(norm[0], fetch);
    if j < |head| {
      assert Fetched(norm, fetch)[j] == st.snap.value;
    } else {
      FetchedAreRecorded(norm[1..], fetch, j - |head|);
      var i :| 0 <= i < |norm[1..]| && AttachOne(norm[1..][i], fetch).snap == Some(Fetched(norm[1..], fetch)[j - |head|]);
      assert norm[1..][i] == norm[i + 1];
    }
  }

  /** Each snapshot taken for normalized results is recorded, as reported, on one of the results. */
  lemma SnapshotsRecorded(norm: seq<Json>, fetch: Fetcher, j: nat)
    requires AllHaveUrl(norm) && j < |Fetched(norm, fetch)|
    ensures exists i :: 0 <= i < |norm| && Get(AttachedResults(norm, fetch)[i], MetaKey) == SnapshotMeta(Fetched(norm, fetch)[j])
  {
    FetchedAreRecorded(norm, fetch, j);
    var i :| 0 <= i < |norm| && AttachOne(norm[i], fetch).snap == Some(Fetched(norm, fetch)[j]);
    AttachOneUpdates(norm[i], fetch);
    AttachedResultsAt(norm, fetch, i);
  }

  /** Results whose step took no snapshot come out of the loop as they went in. */
  lemma UnfetchedUnchanged(norm: seq<Json>, fetch: Fetcher, i: nat)
    requires i < |norm| && norm[i].Object?
    requires !Truthy(Get(norm[i], UrlKey)) || fetch(Get(norm[i], UrlKey)).None?
    ensures AttachedResults(norm, fetch)[i] == norm[i]
  {
    AttachOneUpdates(norm[i], fetch);
    AttachedResultsAt(norm, fetch, i);
  }

  /**
   * The body of the snapshot loop for one result: its URL read, a falsy URL
   * skipped, the store asked, and the metadata set when a snapshot came back.
   */
  method AttachStep(item: Json, fetch: Fetcher) returns (out: Json, snap: seq<Snapshot>, url: seq<Json>)
    ensures out == AttachOne(item, fetch).item
    ensures snap == FetchedBy(item, fetch)
    ensures url == QueriedBy(item)
  {
    out, snap, url := item, [], [];
    var u := Get(item, UrlKey);
    if Truthy(u) {
      url := [u];
      var s := fetch(u);
      if s.Some? {
        out := Object(Assign(item.fields, MetaKey, SnapshotMeta(s.value)));
        snap := [s.value];
      }
    }
  }

  /** The snapshot loop: every result in turn, in order. */
  method AttachSnapshots(norm: seq<Json>, fetch: Fetcher) returns (results: seq<Json>, snaps: seq<Snapshot>, queried: seq<Json>)
    ensures results == AttachedResults(norm, fetch)
    ensures snaps == Fetched(norm, fetch)
    ensures queried == QueriedUrls(norm)
  {
    results, snaps, queried := [], [], [];
    var i := 0;
    while i < |norm|
      invariant 0 <= i <= |norm|
      invariant results == AttachedResults(norm[..i], fetch)
      invariant snaps == Fetched(norm[..i], fetch)
      invariant queried == QueriedUrls(norm[..i])
    {
      var out, snap, url := AttachStep(norm[i], fetch);
      LoopStep(norm, i, fetch);
      results, snaps, queried := results + [out], snaps + snap, queried + url;
      i := i + 1;
    }
    assert norm[..i] == norm;
  }

  /** Extending the prefix by one result extends the loop's outputs by that result's step. */
  lemma LoopStep(norm: seq<Json>, i: nat, fetch: Fetcher)
    requires i < |norm|
    ensures AttachedResults(norm[..i + 1], fetch) == AttachedResults(norm[..i], fetch) + [AttachOne(norm[i], fetch).item]
    ensures Fetched(norm[..i + 1], fetch) == Fetched(norm[..i], fetch) + FetchedBy(norm[i], fetch)
    ensures QueriedUrls(norm[..i + 1]) == QueriedUrls(norm[..i]) + QueriedBy(norm[i])
  {
    SingleResult(norm[i], fetch);
    assert norm[..i + 1] == norm[..i] + [norm[i]];
    AttachedResultsAppend(norm[..i], [norm[i]], fetch);
    FetchedAppend(norm[..i], [norm[i]], fetch);
    QueriedUrlsAppend(norm[..i], [norm[i]]);
  }

  /** The tool's answer: the results and the metadata of each snapshot taken. */
  function Response(results: seq<Json>, snaps: seq<Snapshot>): (resp: Json)
    ensures resp.Object? && UniqueKeys(resp.fields)
    ensures |resp.fields| == 2 && resp.fields[0].0 == "results" && resp.fields[1].0 == "snapshots"
    ensures Lookup(resp.fields, "results") == Some(List(results))
    ensures Lookup(resp.fields, "snapshots").Some? && Lookup(resp.fields, "snapshots").value.List?
    ensures |Lookup(resp.fields, "snapshots").value.items| == |snaps|
    ensures forall j :: 0 <= j < |snaps| ==> Lookup(resp.fields, "snapshots").value.items[j] == SnapshotMeta(snaps[j])
  {
    var metas := seq(|snaps|, j requires 0 <= j < |snaps| => SnapshotMeta(snaps[j]));
    var fields := [("results", List(results)), ("snapshots", List(metas))];
    KeyIndexIs(fields, "results", 0);
    KeyIndexIs(fields, "snapshots", 1);
    Object(fields)
  }

  /**
   * One call of the wrapped tool. Iterating over a `"results"` entry that is not
   * iterable raises, and then nothing is recorded; otherwise the snapshots taken
   * are appended to `history`.
   */
  method ToolWithSnapshots(raw: Json, fetch: Fetcher, history: seq<Snapshot>) returns (r: Result<Json>, newHistory: seq<Snapshot>)
    ensures r.Failure? <==> Candidates(raw).Failure?
    ensures r.Failure? ==> newHistory == history
    ensures r.Success? ==>
      var norm := Normalize(Candidates(raw).value);
      r.value == Response(AttachedResults(norm, fetch), Fetched(norm, fetch)) &&
      newHistory == history + Fetched(norm, fetch)
  {
    match Candidates(raw)
    case Failure(e) =>
      r, newHistory := Failure(e), history;
    case Success(cands) =>
      var norm := Normalize(cands);
      var results, snaps, _ := AttachSnapshots(norm, fetch);
      r := Success(Response(results, snaps));
      newHistory := history + snaps;
  }
}

=== FILE: subtask_header.dfy ===
/**
 * A matcher for the subtask header pattern `---\s*Subtask.*?Result\s*---\s*\n`
 * compiled with IGNORECASE and DOTALL, and for `re.finditer` over it.
 *
 * The matcher follows the backtracking order of Python's regex engine. Each
 * greedy `\s*` that is followed by a non-space literal (`S`, `-`) can only take
 * the whole whitespace run, so it never backtracks; the final `\s*\n` takes the
 * whole run and gives characters back until a newline follows, so it ends just
 * after the last newline of that run; the lazy `.*?` tries the tail at every
 * position from left to right and stops at the first one where it matches.
 */
module SubtaskHeader {
  import opened Wrappers
  import opened Text

  /**
   * `c` lower-cases to `l` under ASCII case folding: an upper-case ASCII letter
   * becomes the letter 32 code points above it, every other character stays as it is.
   */
  predicate LowersTo(c: char, l: char) {
    if 'A' <= c <= 'Z' then c as int + 32 == l as int else c == l
  }

  /** The lower-case ASCII word `w` occurs at `i` in `t`, ignoring ASCII case. */
  predicate WordAt(t: string, i: nat, w: string) {
    i + |w| <= |t| && WordFrom(t, i, w, 0)
  }

  /** Characters `j..` of `w` match `t` from `i + j` on, ignoring ASCII case. */
  predicate WordFrom(t: string, i: nat, w: string, j: nat)
    requires i + |w| <= |t| && j <= |w|
    decreases |w| - j
  {
    j == |w| || (LowersTo(t[i + j], w[j]) && WordFrom(t, i, w, j + 1))
  }

  /** The literal `---` occurs at `i`. */
  predicate DashesAt(t: string, i: nat) {
    i + 3 <= |t| && t[i] == '-' && t[i + 1] == '-' && t[i + 2] == '-'
  }

  /** The last newline in `t[lo..hi]`. */
  function LastNewline(t: string, lo: nat, hi: nat): (r: Option<nat>)
    requires lo <= hi <= |t|
    ensures r.Some? ==> lo <= r.value < hi && t[r.value] == '\n'
    decreases hi
  {
    if hi == lo then None
    else if t[hi - 1] == '\n' then Some(hi - 1)
    else LastNewline(t, lo, hi - 1)
  }

  /** The newline found is the last one in `t[lo..hi]`, and none is found exactly when there is none. */
  lemma {:induction false} LastNewlineSpec(t: string, lo: nat, hi: nat)
    requires lo <= hi <= |t|
    ensures LastNewline(t, lo, hi).Some? ==> forall k :: LastNewline(t, lo, hi).value < k < hi ==> t[k] != '\n'
    ensures LastNewline(t, lo, hi).None? <==> forall k :: lo <= k < hi ==> t[k] != '\n'
    decreases hi
  {
    if hi > lo && t[hi - 1] != '\n' {
      LastNewlineSpec(t, lo, hi - 1);
    }
  }

  /** The tail `Result\s*---\s*\n` tried at `p`: the end of its match, if any. */
  function TailAt(t: string, p: nat): (r: Option<nat>)
    requires p <= |t|
    ensures r.Some? ==> p + 10 <= r.value <= |t| && t[r.value - 1] == '\n'
  {
    if !WordAt(t, p, "result") then None
    else
      var q := SpaceRunFrom(t, p + 6);
      if !DashesAt(t, q) then None
      else
        var w := SpaceRunFrom(t, q + 3);
        match LastNewline(t, q + 3, w)
        case Some(n) => Some(n + 1)
        case None => None
  }

  /**
   * The first entry from `p` on that holds a value, with its index: the engine
   * tries candidate positions from left to right and takes the first that succeeds.
   */
  function FirstSome(xs: seq<Option<nat>>, p: nat): (r: Option<(nat, nat)>)
    requires p <= |xs|
    ensures r.Some? ==> p <= r.value.0 < |xs| && xs[r.value.0] == Some(r.value.1)
    decreases |xs| - p
  {
    if p == |xs| then None
    else if xs[p].Some? then Some((p, xs[p].value))
    else FirstSome(xs, p + 1)
  }

  /** The scan skips only empty entries, and finds nothing exactly when every entry from `p` on is empty. */
  lemma {:induction false} FirstSomeSpec(xs: seq<Option<nat>>, p: nat)
    requires p <= |xs|
    ensures FirstSome(xs, p).Some? ==> forall k :: p <= k < FirstSome(xs, p).value.0 ==> xs[k].None?
    ensures FirstSome(xs, p).None? <==> forall k :: p <= k < |xs| ==> xs[k].None?
    decreases |xs| - p
  {
    if p < |xs| && xs[p].None? {
      FirstSomeSpec(xs, p + 1);
    }
  }

  /** The tail tried at every position of `t`, the end included. */
  function TailTable(t: string): (tails: seq<Option<nat>>)
    ensures |tails| == |t| + 1
  {
    seq(|t| + 1, k requires 0 <= k <= |t| => TailAt(t, k))
  }

  /** The lazy `.*?` followed by the tail: the tail at the first position from `p` on where it matches. */
  function LazyTail(t: string, p: nat): (r: Option<nat>)
    requires p <= |t|
    ensures r.Some? ==> p + 10 <= r.value <= |t| && t[r.value - 1] == '\n'
  {
    match FirstSome(TailTable(t), p)
    case Some(m) =>
      assert TailTable(t)[m.0] == TailAt(t, m.0);
      Some(m.1)
    case None => None
  }

  /** The whole pattern anchored at `s`: the end of the match starting there, if any. */
  function MatchAt(t: string, s: nat): (r: Option<nat>)
    requires s <= |t|
    ensures r.Some? ==> s + 20 <= r.value <= |t| && t[r.value - 1] == '\n'
  {
    if !DashesAt(t, s) then None
    else
      var w := SpaceRunFrom(t, s + 3);
      if !WordAt(t, w, "subtask") then None else LazyTail(t, w + 7)
  }

  /** Every character of `t[i..j]` is whitespace. */
  predicate SpacesBetween(t: string, i: nat, j: nat) {
    i <= j <= |t| && forall k :: i <= k < j ==> IsSpace(t[k])
  }

  /** `t[p..e]` is in the language of `Result\s*---\s*\n`. */
  ghost predicate TailMatches(t: string, p: nat, e: nat) {
    && WordAt(t, p, "result")
    && (exists q: nat :: SpacesBetween(t, p + 6, q) && DashesAt(t, q) && q + 3 < e && SpacesBetween(t, q + 3, e))
    && t[e - 1] == '\n'
  }

  /** `t[s..e]` is in the language of the whole pattern, with the lazy `.*?` ending at `p`. */
  ghost predicate HeaderWith(t: string, s: nat, p: nat, e: nat) {
    && DashesAt(t, s)
    && (exists w: nat :: SpacesBetween(t, s + 3, w) && WordAt(t, w, "subtask") && w + 7 <= p)
    && TailMatches(t, p, e)
  }

  /** A whitespace run that stops at a non-space character is the run `SpaceRunFrom` measures. */
  lemma SpaceRunStopsAt(t: string, i: nat, j: nat)
    requires SpacesBetween(t, i, j) && j < |t| && !IsSpace(t[j])
    ensures SpaceRunFrom(t, i) == j
  {
    SpaceRunFromSpec(t, i);
  }

  /** A whitespace run from `i` never goes past the run `SpaceRunFrom` measures. */
  lemma SpaceRunCovers(t: string, i: nat, j: nat)
    requires SpacesBetween(t, i, j)
    ensures j <= SpaceRunFrom(t, i)
  {
    SpaceRunFromSpec(t, i);
  }

  /** What the tail matcher finds at `p` is in the tail's language. */
  lemma TailAtSound(t: string, p: nat)
    requires p <= |t| && TailAt(t, p).Some?
    ensures TailMatches(t, p, TailAt(t, p).value)
  {
    var q := SpaceRunFrom(t, p + 6);
    var w := SpaceRunFrom(t, q + 3);
    var n := LastNewline(t, q + 3, w).value;
    SpaceRunFromSpec(t, p + 6);
    SpaceRunFromSpec(t, q + 3);
    LastNewlineSpec(t, q + 3, w);
    assert SpacesBetween(t, q + 3, n + 1);
    assert SpacesBetween(t, p + 6, q);
  }

  /**
   * Every string of the tail's language at `p` is found, and none is longer than
   * what the matcher returns, as the greedy final `\s*` gives back only down to the last newline.
   */
  lemma TailAtLongest(t: string, p: nat, e: nat)
    requires p <= |t| && TailMatches(t, p, e)
    ensures TailAt(t, p).Some? && e <= TailAt(t, p).value
  {
    var q: nat :| SpacesBetween(t, p + 6, q) && DashesAt(t, q) && q + 3 < e && SpacesBetween(t, q + 3, e);
    SpaceRunStopsAt(t, p + 6, q);
    SpaceRunCovers(t, q + 3, e);
    var w := SpaceRunFrom(t, q + 3);
    assert q + 3 <= e - 1 < w && t[e - 1] == '\n';
    LastNewlineSpec(t, q + 3, w);
  }

  /** The tail matcher agrees with the tail's language, and finds its longest string at `p`. */
  lemma TailAtCorrect(t: string, p: nat)
    requires p <= |t|
    ensures TailAt(t, p).Some? ==> TailMatches(t, p, TailAt(t, p).value)
    ensures forall e: nat :: TailMatches(t, p, e) ==> TailAt(t, p).Some? && e <= TailAt(t, p).value
  {
    if TailAt(t, p).Some? {
      TailAtSound(t, p);
    }
    forall e: nat | TailMatches(t, p, e)
      ensures TailAt(t, p).Some? && e <= TailAt(t, p).value
    {
      TailAtLongest(t, p, e);
    }
  }

  /** The tail matches at no position of `[p, m)`. */
  predicate NoTailBetween(t: string, p: nat, m: nat)
    requires m <= |t|
  {
    forall k :: p <= k < m ==> TailAt(t, k).None?
  }

  /** The lazy `.*?` stops at the first position from `p` on where the tail matches. */
  lemma LazyTailFirst(t: string, p: nat)
    requires p <= |t| && LazyTail(t, p).Some?
    ensures exists m: nat :: p <= m <= |t| && TailAt(t, m) == LazyTail(t, p) && NoTailBetween(t, p, m)
  {
    LazyTailStop(t, p);
  }

  /** The position where the lazy `.*?` stops, as the scan over the tail table finds it. */
  lemma LazyTailStop(t: string, p: nat)
    requires p <= |t| && LazyTail(t, p).Some?
    ensures var m := FirstSome(TailTable(t), p).value.0;
      p <= m <= |t| && TailAt(t, m) == LazyTail(t, p) && NoTailBetween(t, p, m)
  {
    var tails := TailTable(t);
    FirstSomeSpec(tails, p);
    var m := FirstSome(tails, p).value.0;
    assert tails[m] == TailAt(t, m);
    forall k | p <= k < m ensures TailAt(t, k).None? {
      assert tails[k] == TailAt(t, k);
    }
  }

  /** The tail does not match in `[p, m)` when it does not match at `p` nor in `[p + 1, m)`. */
  lemma NoTailStep(t: string, p: nat, m: nat)
    requires p < m <= |t| && TailAt(t, p).None? && NoTailBetween(t, p + 1, m)
    ensures NoTailBetween(t, p, m)
  {
  }

  /** The lazy search from `p` ends with the tail at the first position `k` from `p` on where it matches. */
  lemma LazyTailIs(t: string, p: nat, k: nat)
    requires p <= k <= |t| && TailAt(t, k).Some? && NoTailBetween(t, p, k)
    ensures LazyTail(t, p) == TailAt(t, k)
  {
    var tails := TailTable(t);
    assert tails[k] == TailAt(t, k);
    forall j | p <= j < k
      ensures tails[j].None?
    {
      assert tails[j] == TailAt(t, j);
    }
    FirstSomeIs(tails, p, k);
  }

  /** If the tail matches at `p`, the lazy search from any earlier position finds a match. */
  lemma LazyTailFinds(t: string, q: nat, p: nat)
    requires q <= p <= |t| && TailAt(t, p).Some?
    ensures LazyTail(t, q).Some?
  {
    var tails := TailTable(t);
    FirstSomeSpec(tails, q);
    assert tails[p] == TailAt(t, p);
  }

  /** The word `subtask` after the opening dashes can only start where their whitespace run ends. */
  lemma SubtaskWordPosition(t: string, s: nat, w: nat)
    requires s + 3 <= |t| && SpacesBetween(t, s + 3, w) && WordAt(t, w, "subtask")
    ensures w == SpaceRunFrom(t, s + 3)
  {
    assert LowersTo(t[w + 0], "subtask"[0]);
    SpaceRunStopsAt(t, s + 3, w);
  }

  /** No string at `s` in the pattern's language has a shorter `.*?` than one ending at `p`. */
  ghost predicate EarliestTail(t: string, s: nat, p: nat) {
    forall p2: nat, e2: nat :: p2 < p && HeaderWith(t, s, p2, e2) ==> false
  }

  /**
   * What the matcher finds at `s` is in the pattern's language, with the shortest
   * `.*?` there is and, for that, the longest final whitespace run.
   */
  lemma MatchAtSound(t: string, s: nat)
    requires s <= |t| && MatchAt(t, s).Some?
    ensures exists p: nat :: HeaderWith(t, s, p, MatchAt(t, s).value) && EarliestTail(t, s, p) && LongestTail(t, s, p, MatchAt(t, s).value)
  {
    var e := MatchAt(t, s).value;
    var w := SpaceRunFrom(t, s + 3);
    SpaceRunFromSpec(t, s + 3);
    assert SpacesBetween(t, s + 3, w);
    LazyTailStop(t, w + 7);
    var m := FirstSome(TailTable(t), w + 7).value.0;
    TailAtSound(t, m);
    assert HeaderWith(t, s, m, e);
    NoEarlierTail(t, s, m);
    LongestAtStop(t, s, m);
  }

  /** With `.*?` ending at `m`, no string of the language ends after what the tail matcher finds there. */
  lemma LongestAtStop(t: string, s: nat, m: nat)
    requires m <= |t| && TailAt(t, m).Some?
    ensures LongestTail(t, s, m, TailAt(t, m).value)
  {
    forall e2: nat | HeaderWith(t, s, m, e2)
      ensures e2 <= TailAt(t, m).value
    {
      TailAtLongest(t, m, e2);
    }
  }

  /** When the tail matches nowhere between the word `subtask` and `m`, no header at `s` has a shorter `.*?`. */
  lemma NoEarlierTail(t: string, s: nat, m: nat)
    requires s + 3 <= |t| && SpaceRunFrom(t, s + 3) + 7 <= m <= |t|
    requires NoTailBetween(t, SpaceRunFrom(t, s + 3) + 7, m)
    ensures EarliestTail(t, s, m)
  {
    forall p2: nat, e2: nat | p2 < m && HeaderWith(t, s, p2, e2)
      ensures false
    {
      var w2: nat :| SpacesBetween(t, s + 3, w2) && WordAt(t, w2, "subtask") && w2 + 7 <= p2;
      SubtaskWordPosition(t, s, w2);
      TailAtLongest(t, p2, e2);
    }
  }

  /** No string at `s` in the pattern's language with `.*?` ending at `p` ends after `e`. */
  ghost predicate LongestTail(t: string, s: nat, p: nat, e: nat) {
    forall e2: nat :: HeaderWith(t, s, p, e2) ==> e2 <= e
  }

  /** Whenever a string at `s` is in the pattern's language, the matcher finds a match there. */
  lemma MatchAtComplete(t: string, s: nat, p: nat, e: nat)
    requires s <= |t| && HeaderWith(t, s, p, e)
    ensures MatchAt(t, s).Some?
  {
    var w: nat :| SpacesBetween(t, s + 3, w) && WordAt(t, w, "subtask") && w + 7 <= p;
    SubtaskWordPosition(t, s, w);
    TailAtLongest(t, p, e);
    LazyTailFinds(t, w + 7, p);
    MatchAtAfterWord(t, s);
  }

  /** Once the dashes and the word `subtask` match at `s`, the match is decided by the lazy search after the word. */
  lemma MatchAtAfterWord(t: string, s: nat)
    requires s <= |t| && DashesAt(t, s) && WordAt(t, SpaceRunFrom(t, s + 3), "subtask")
    ensures MatchAt(t, s) == LazyTail(t, SpaceRunFrom(t, s + 3) + 7)
  {
  }

  /** The whole pattern tried at every position of `t`, the end included. */
  function MatchTable(t: string): (starts: seq<Option<nat>>)
    ensures |starts| == |t| + 1
  {
    seq(|t| + 1, k requires 0 <= k <= |t| => MatchAt(t, k))
  }

  /** The leftmost match that starts at or after `pos`, as (start, end). */
  function FirstMatchFrom(t: string, pos: nat): (r: Option<(nat, nat)>)
    requires pos <= |t|
    ensures r.Some? ==> pos <= r.value.0 && r.value.0 + 20 <= r.value.1 <= |t| && t[r.value.1 - 1] == '\n'
    ensures r.Some? ==> MatchAt(t, r.value.0) == Some(r.value.1)
  {
    var m := FirstSome(MatchTable(t), pos);
    assert m.Some? ==> MatchTable(t)[m.value.0] == MatchAt(t, m.value.0);
    m
  }

  /** The search finds the leftmost match from `pos` on, and finds none exactly when there is none. */
  lemma FirstMatchFromSpec(t: string, pos: nat)
    requires pos <= |t|
    ensures FirstMatchFrom(t, pos).Some? ==> forall k :: pos <= k < FirstMatchFrom(t, pos).value.0 ==> MatchAt(t, k).None?
    ensures FirstMatchFrom(t, pos).None? <==> forall k :: pos <= k <= |t| ==> MatchAt(t, k).None?
  {
    var starts := MatchTable(t);
    FirstSomeSpec(starts, pos);
    assert forall k :: 0 <= k <= |t| ==> starts[k] == MatchAt(t, k);
  }

  /**
   * The last element of `re.finditer` started at `pos`: each search resumes at the
   * end of the previous match, so matches never overlap.
   */
  function LastMatchFrom(t: string, pos: nat): (r: Option<(nat, nat)>)
    requires pos <= |t|
    ensures r.Some? ==> pos <= r.value.0 <= |t| && MatchAt(t, r.value.0) == Some(r.value.1)
    ensures r.Some? ==> 0 < r.value.1 <= |t| && t[r.value.1 - 1] == '\n'
    decreases |t| - pos
  {
    match FirstMatchFrom(t, pos)
    case None => None
    case Some(m) =>
      match LastMatchFrom(t, m.1)
      case None => Some(m)
      case Some(later) => Some(later)
  }

  /** `finditer` yields nothing exactly when no match starts at or after `pos`. */
  lemma NoMatchesIff(t: string, pos: nat)
    requires pos <= |t|
    ensures LastMatchFrom(t, pos).None? <==> forall k :: pos <= k <= |t| ==> MatchAt(t, k).None?
  {
    FirstMatchFromSpec(t, pos);
    match FirstMatchFrom(t, pos)
    case None =>
    case Some(m) =>
      assert MatchAt(t, m.0).Some?;
  }

  /** After the last match that `finditer` yields, no further match starts anywhere. */
  lemma {:induction false} LastMatchIsLast(t: string, pos: nat)
    requires pos <= |t|
    requires LastMatchFrom(t, pos).Some?
    ensures forall k :: LastMatchFrom(t, pos).value.1 <= k <= |t| ==> MatchAt(t, k).None?
    decreases |t| - pos
  {
    var m := FirstMatchFrom(t, pos).value;
    match LastMatchFrom(t, m.1)
    case None =>
      NoMatchesIff(t, m.1);
    case Some(later) =>
      LastMatchIsLast(t, m.1);
  }

  /** `m` is the leftmost match at or after `p`: what one search of `finditer` yields. */
  ghost predicate IsLeftmostMatch(t: string, p: nat, m: (nat, nat)) {
    && p <= m.0 <= |t|
    && MatchAt(t, m.0) == Some(m.1)
    && forall k :: p <= k < m.0 ==> MatchAt(t, k).None?
  }

  /** Where the search resumes after the matches `ms` found from `pos`: the end of the last one. */
  function ChainEnd(pos: nat, ms: seq<(nat, nat)>): nat {
    if |ms| == 0 then pos else ms[|ms| - 1].1
  }

  /**
   * `ms` is what `finditer` yields from `pos`: each match is the leftmost one at or
   * after the end of the one before it (at or after `pos` for the first), and no
   * match starts at or after the end of the last.
   */
  ghost predicate IsMatchChain(t: string, pos: nat, ms: seq<(nat, nat)>) {
    && (|ms| > 0 ==> IsLeftmostMatch(t, pos, ms[0]))
    && (forall i :: 1 <= i < |ms| ==> IsLeftmostMatch(t, ms[i - 1].1, ms[i]))
    && ChainEnd(pos, ms) <= |t|
    && forall k :: ChainEnd(pos, ms) <= k <= |t| ==> MatchAt(t, k).None?
  }

  /** The first entry from `p` on that holds a value is the one the scan finds. */
  lemma {:induction false} FirstSomeIs(xs: seq<Option<nat>>, p: nat, k: nat)
    requires p <= k < |xs| && xs[k].Some?
    requires forall j :: p <= j < k ==> xs[j].None?
    ensures FirstSome(xs, p) == Some((k, xs[k].value))
    decreases k - p
  {
    if p < k {
      FirstSomeIs(xs, p + 1, k);
    }
  }

  /** After its first match, a chain continues as a chain from that match's end. */
  lemma ChainRest(t: string, pos: nat, ms: seq<(nat, nat)>)
    requires IsMatchChain(t, pos, ms) && |ms| > 0
    ensures IsMatchChain(t, ms[0].1, ms[1..])
  {
    var rest := ms[1..];
    forall i | 1 <= i < |rest|
      ensures IsLeftmostMatch(t, rest[i - 1].1, rest[i])
    {
      assert rest[i - 1] == ms[i] && rest[i] == ms[i + 1];
    }
    assert |rest| > 0 ==> rest[0] == ms[1];
    assert ChainEnd(ms[0].1, rest) == ChainEnd(pos, ms);
  }

  /** The leftmost match from `p` is the one the search finds. */
  lemma LeftmostIsFound(t: string, p: nat, m: (nat, nat))
    requires p <= |t| && IsLeftmostMatch(t, p, m)
    ensures FirstMatchFrom(t, p) == Some(m)
  {
    var starts := MatchTable(t);
    assert starts[m.0] == MatchAt(t, m.0);
    forall j | p <= j < m.0
      ensures starts[j].None?
    {
      assert starts[j] == MatchAt(t, j);
    }
    FirstSomeIs(starts, p, m.0);
  }

  /**
   * The last match `LastMatchFrom` yields is the last element of any chain of
   * leftmost, non-overlapping matches from `pos`, and it yields none exactly when that chain is empty.
   */
  lemma {:induction false} LastMatchEndsChain(t: string, pos: nat, ms: seq<(nat, nat)>)
    requires pos <= |t| && IsMatchChain(t, pos, ms)
    ensures LastMatchFrom(t, pos) == if |ms| == 0 then None else Some(ms[|ms| - 1])
    decreases |ms|
  {
    if |ms| == 0 {
      FirstMatchFromSpec(t, pos);
    } else {
      var m := ms[0];
      LeftmostIsFound(t, pos, m);
      var rest := ms[1..];
      ChainRest(t, pos, ms);
      LastMatchEndsChain(t, m.1, rest);
    }
  }

  /** The matches `finditer` yields from `pos`, in order. */
  ghost function MatchChain(t: string, pos: nat): seq<(nat, nat)>
    requires pos <= |t|
    decreases |t| - pos
  {
    match FirstMatchFrom(t, pos)
    case None => []
    case Some(m) => [m] + MatchChain(t, m.1)
  }

  /** A leftmost match followed by a chain from its end is a chain. */
  lemma ChainCons(t: string, pos: nat, m: (nat, nat), rest: seq<(nat, nat)>)
    requires IsLeftmostMatch(t, pos, m) && IsMatchChain(t, m.1, rest)
    ensures IsMatchChain(t, pos, [m] + rest)
  {
    var ms := [m] + rest;
    forall i | 1 <= i < |ms|
      ensures IsLeftmostMatch(t, ms[i - 1].1, ms[i])
    {
      if i > 1 {
        assert ms[i - 1] == rest[i - 2] && ms[i] == rest[i - 1];
      }
    }
    assert ChainEnd(pos, ms) == ChainEnd(m.1, rest);
  }

  /** `finditer` has a chain to yield from every start position: the one `MatchChain` collects. */
  lemma {:induction false} MatchChainExists(t: string, pos: nat)
    requires pos <= |t|
    ensures IsMatchChain(t, pos, MatchChain(t, pos))
    decreases |t| - pos
  {
    FirstMatchFromSpec(t, pos);
    match FirstMatchFrom(t, pos)
    case None =>
    case Some(m) =>
      MatchChainExists(t, m.1);
      ChainCons(t, pos, m, MatchChain(t, m.1));
  }

  /** Matches `finditer` yields never overlap, and each starts before it ends. */
  lemma ChainDoesNotOverlap(t: string, pos: nat, ms: seq<(nat, nat)>)
    requires IsMatchChain(t, pos, ms)
    ensures forall i :: 0 <= i < |ms| ==> pos <= ms[i].0 < ms[i].1
    ensures forall i, j :: 0 <= i < j < |ms| ==> ms[i].1 <= ms[j].0
  {
    forall i | 0 <= i < |ms|
      ensures pos <= ms[i].0 < ms[i].1
    {
      assert IsLeftmostMatch(t, pos, ms[0]);
      if i > 0 {
        assert IsLeftmostMatch(t, ms[i - 1].1, ms[i]);
        ChainOrdered(t, pos, ms, 0, i);
      }
    }
    forall i, j | 0 <= i < j < |ms|
      ensures ms[i].1 <= ms[j].0
    {
      ChainOrdered(t, pos, ms, i, j);
    }
  }

  /** In a chain, a match at an earlier index ends no later than a later one starts. */
  lemma {:induction false} ChainOrdered(t: string, pos: nat, ms: seq<(nat, nat)>, i: nat, j: nat)
    requires IsMatchChain(t, pos, ms) && i < j < |ms|
    ensures ms[i].1 <= ms[j].0
    decreases j - i
  {
    assert IsLeftmostMatch(t, ms[j - 1].1, ms[j]);
    if i < j - 1 {
      ChainOrdered(t, pos, ms, i, j - 1);
      assert IsLeftmostMatch(t, ms[j - 2].1, ms[j - 1]);
    }
  }

  /**
   * A transcript with a header at 0 whose closing dashes, at 18, open a second
   * header that runs to 43. `finditer` yields only the first: the search resumes at
   * 22, after the overlapping start.
   */
  const OverlapExample: string := "---subtask result ---\n" + "subtask x result ---\n" + "BODY"

  /** The overlapping match is skipped: the last match `finditer` yields is the one at 0. */
  lemma OverlappingMatchSkipped()
    ensures MatchAt(OverlapExample, 0) == Some(22) && MatchAt(OverlapExample, 18) == Some(43)
    ensures LastMatchFrom(OverlapExample, 0) == Some((0, 22))
  {
    var t := OverlapExample;
    ExampleFirstMatch();
    ExampleSecondMatch();
    ExampleNothingAfter();
    ChainCons(t, 0, (0, 22), []);
    LastMatchEndsChain(t, 0, [(0, 22)]);
  }

  /** The first header of the example runs from 0 to 22. */
  lemma ExampleFirstMatch()
    ensures MatchAt(OverlapExample, 0) == Some(22)
  {
    var t := OverlapExample;
    assert DashesAt(t, 0);
    assert SpaceRunFrom(t, 3) == 3;
    assert WordAt(t, 3, "subtask");
    ExampleLazyTail10();
  }

  /** After `subtask` at 3, the shortest `.*?` reaches the first tail, which ends at 22. */
  lemma ExampleLazyTail10()
    ensures LazyTail(OverlapExample, 10) == Some(22)
  {
    var t := OverlapExample;
    assert TailAt(t, 10).None?;
    NoTailStep(t, 10, 11);
    ExampleTailAt11();
    LazyTailIs(t, 10, 11);
  }

  /** `result`, the dashes at 18 and the newline at 21 form a tail ending at 22. */
  lemma ExampleTailAt11()
    ensures TailAt(OverlapExample, 11) == Some(22)
  {
    var t := OverlapExample;
    assert WordAt(t, 11, "result");
    assert SpaceRunFrom(t, 18) == 18;
    assert SpaceRunFrom(t, 17) == 18;
    assert DashesAt(t, 18);
    assert SpaceRunFrom(t, 22) == 22;
    assert SpaceRunFrom(t, 21) == 22;
    assert LastNewline(t, 21, 22) == Some(21);
  }

  /** The closing dashes of the first header, at 18, open a header that runs to 43. */
  lemma ExampleSecondMatch()
    ensures MatchAt(OverlapExample, 18) == Some(43)
  {
    var t := OverlapExample;
    assert DashesAt(t, 18);
    assert SpaceRunFrom(t, 22) == 22;
    assert SpaceRunFrom(t, 21) == 22;
    assert WordAt(t, 22, "subtask");
    ExampleLazyTail29();
  }

  /** After `subtask` at 22, the shortest `.*?` reaches the tail at 32, which ends at 43. */
  lemma ExampleLazyTail29()
    ensures LazyTail(OverlapExample, 29) == Some(43)
  {
    var t := OverlapExample;
    ExampleTailAt32();
    ExampleNoTailBefore32();
    LazyTailIs(t, 29, 32);
  }

  /** No tail begins at 29, 30 or 31. */
  lemma ExampleNoTailBefore32()
    ensures NoTailBetween(OverlapExample, 29, 32)
  {
    var t := OverlapExample;
    assert TailAt(t, 31).None?;
    NoTailStep(t, 31, 32);
    assert TailAt(t, 30).None?;
    NoTailStep(t, 30, 32);
    assert TailAt(t, 29).None?;
    NoTailStep(t, 29, 32);
  }

  /** `result`, the dashes at 39 and the newline at 42 form a tail ending at 43. */
  lemma ExampleTailAt32()
    ensures TailAt(OverlapExample, 32) == Some(43)
  {
    var t := OverlapExample;
    assert WordAt(t, 32, "result");
    assert SpaceRunFrom(t, 39) == 39;
    assert SpaceRunFrom(t, 38) == 39;
    assert DashesAt(t, 39);
    assert SpaceRunFrom(t, 43) == 43;
    assert SpaceRunFrom(t, 42) == 43;
    assert LastNewline(t, 42, 43) == Some(42);
  }

  /** No header begins at or after 22, where the search resumes after the first match. */
  lemma ExampleNothingAfter()
    ensures forall k :: 22 <= k <= |OverlapExample| ==> MatchAt(OverlapExample, k).None?
  {
    var t := OverlapExample;
    ExampleNoDashes(22, 30);
    ExampleNoDashes(30, 39);
    ExampleNoDashes(40, 48);
    assert SpaceRunFrom(t, 43) == 43;
    assert SpaceRunFrom(t, 42) == 43;
    assert !WordAt(t, 43, "subtask");
  }

  /** No `---` begins in `[lo, hi)`, for ranges of the example that avoid the dashes at 39. */
  lemma ExampleNoDashes(lo: nat, hi: nat)
    requires 22 <= lo <= hi <= 48 && (hi <= 39 || 40 <= lo)
    ensures forall k :: lo <= k < hi ==> !DashesAt(OverlapExample, k)
  {
  }
}

=== FILE: text.dfy ===
/**
 * The Python `str` primitives the extraction and escape-stripping code relies on:
 * `isspace`, `strip`, `rfind`, `find` and `startswith`, plus occurrence and
 * subsequence predicates used to state their properties.
 */
module Text {
  import opened Wrappers

  /**
   * Python's `str.isspace` on one character. `str.strip()` without argument and
   * the regex class `\s` on `str` patterns both use this set: U+0009..U+000D,
   * U+001C..U+0020, U+0085, U+00A0, U+1680, U+2000..U+200A, U+2028, U+2029,
   * U+202F, U+205F and U+3000.
   */
  predicate IsSpace(c: char) {
    var n := c as int;
    || 0x09 <= n <= 0x0D
    || 0x1C <= n <= 0x20
    || n == 0x85 || n == 0xA0 || n == 0x1680
    || 0x2000 <= n <= 0x200A
    || n == 0x2028 || n == 0x2029 || n == 0x202F || n == 0x205F || n == 0x3000
  }

  predicate AllSpace(s: string) {
    forall i :: 0 <= i < |s| ==> IsSpace(s[i])
  }

  /** Neither end of `s` is whitespace: what `str.strip()` guarantees of its result. */
  predicate IsStripped(s: string) {
    |s| == 0 || (!IsSpace(s[0]) && !IsSpace(s[|s| - 1]))
  }

  /** The end of the longest run of whitespace that starts at `i`. */
  function SpaceRunFrom(s: string, i: nat): (j: nat)
    requires i <= |s|
    ensures i <= j <= |s|
    decreases |s| - i
  {
    if i == |s| || !IsSpace(s[i]) then i else SpaceRunFrom(s, i + 1)
  }

  /** The run `SpaceRunFrom` measures is all whitespace and cannot be extended. */
  lemma {:induction false} SpaceRunFromSpec(s: string, i: nat)
    requires i <= |s|
    ensures forall k :: i <= k < SpaceRunFrom(s, i) ==> IsSpace(s[k])
    ensures SpaceRunFrom(s, i) == |s| || !IsSpace(s[SpaceRunFrom(s, i)])
    decreases |s| - i
  {
    if i < |s| && IsSpace(s[i]) {
      SpaceRunFromSpec(s, i + 1);
    }
  }

  /** The start of the longest run of whitespace that ends at `j` and does not reach below `lo`. */
  function SpaceRunBefore(s: string, lo: nat, j: nat): (k: nat)
    requires lo <= j <= |s|
    ensures lo <= k <= j
    decreases j
  {
    if j == lo || !IsSpace(s[j - 1]) then j else SpaceRunBefore(s, lo, j - 1)
  }

  /** The run `SpaceRunBefore` measures is all whitespace and cannot be extended below. */
  lemma {:induction false} SpaceRunBeforeSpec(s: string, lo: nat, j: nat)
    requires lo <= j <= |s|
    ensures forall m :: SpaceRunBefore(s, lo, j) <= m < j ==> IsSpace(s[m])
    ensures SpaceRunBefore(s, lo, j) == lo || !IsSpace(s[SpaceRunBefore(s, lo, j) - 1])
    decreases j
  {
    if j > lo && IsSpace(s[j - 1]) {
      SpaceRunBeforeSpec(s, lo, j - 1);
    }
  }

  /** The bounds `str.strip()` keeps: the end of the leading whitespace and the start of the trailing whitespace. */
  function StripBounds(s: string): (b: (nat, nat))
    ensures b.0 <= b.1 <= |s|
  {
    var i := SpaceRunFrom(s, 0);
    (i, SpaceRunBefore(s, i, |s|))
  }

  /** Everything before the kept bounds is whitespace, everything after is, and the kept part has none at either end. */
  lemma StripBoundsSpec(s: string)
    ensures var b := StripBounds(s);
      && (forall k :: 0 <= k < b.0 ==> IsSpace(s[k]))
      && (forall k :: b.1 <= k < |s| ==> IsSpace(s[k]))
      && (b.0 < b.1 ==> !IsSpace(s[b.0]) && !IsSpace(s[b.1 - 1]))
  {
    var i := SpaceRunFrom(s, 0);
    SpaceRunFromSpec(s, 0);
    SpaceRunBeforeSpec(s, i, |s|);
  }

  /** Python's `str.strip()` with no argument. */
  function Strip(s: string): (r: string)
    ensures |r| <= |s|
    ensures IsStripped(r)
  {
    var b := StripBounds(s);
    StripBoundsSpec(s);
    assert b.0 < b.1 ==> s[b.0..b.1][0] == s[b.0] && s[b.0..b.1][b.1 - b.0 - 1] == s[b.1 - 1];
    s[b.0..b.1]
  }

  /**
   * `strip` on one character removes it exactly when it is whitespace, and keeps it
   * otherwise. On ASCII it removes exactly the space, TAB, LF, VT, FF, CR and the
   * separators U+001C..U+001F; every other ASCII character, DEL included, is kept.
   */
  lemma StripOneChar(c: char)
    ensures Strip([c]) == [] <==> IsSpace(c)
    ensures Strip([c]) == [] || Strip([c]) == [c]
    ensures var n := c as int;
      n < 0x80 ==> (Strip([c]) == [] <==> n == 0x20 || 0x09 <= n <= 0x0D || 0x1C <= n <= 0x1F)
  {
    StripBoundsSpec([c]);
  }

  /** What `strip` returns is a contiguous piece of its argument. */
  lemma StripIsSubstring(s: string)
    ensures Contains(s, Strip(s))
  {
    var b := StripBounds(s);
    OccursAtSlice(s, s[b.0..b.1], b.0);
  }

  /** `p` occurs in `t` starting at index `i`: `t[i..i + |p|] == p`, stated character by character. */
  predicate OccursAt(t: string, p: string, i: nat) {
    i + |p| <= |t| && forall k :: 0 <= k < |p| ==> t[i + k] == p[k]
  }

  /** The character-by-character occurrence is the slice equality. */
  lemma OccursAtSlice(t: string, p: string, i: nat)
    ensures OccursAt(t, p, i) <==> i + |p| <= |t| && t[i..i + |p|] == p
  {
    if i + |p| <= |t| && t[i..i + |p|] == p {
      forall k | 0 <= k < |p| ensures t[i + k] == p[k] {
        assert t[i..i + |p|][k] == p[k];
      }
    }
  }

  /** Python's `p in t` for strings. */
  ghost predicate Contains(t: string, p: string) {
    exists i: nat :: OccursAt(t, p, i)
  }

  /** Python's `s.startswith(p)`. */
  predicate StartsWith(s: string, p: string) {
    |p| <= |s| && s[..|p|] == p
  }

  /** The last occurrence of `p` in `t` that starts at or below `k`. */
  function RFindAtOrBelow(t: string, p: string, k: nat): (r: Option<nat>)
    requires k <= |t|
    ensures r.Some? ==> r.value <= k && OccursAt(t, p, r.value)
    decreases k
  {
    if OccursAt(t, p, k) then Some(k)
    else if k == 0 then None
    else RFindAtOrBelow(t, p, k - 1)
  }

  /** The backward search skips no occurrence, and finds none exactly when none starts at or below `k`. */
  lemma {:induction false} RFindAtOrBelowSpec(t: string, p: string, k: nat)
    requires k <= |t|
    ensures RFindAtOrBelow(t, p, k).Some? ==> forall j: nat :: RFindAtOrBelow(t, p, k).value < j <= k ==> !OccursAt(t, p, j)
    ensures RFindAtOrBelow(t, p, k).None? <==> forall j: nat :: j <= k ==> !OccursAt(t, p, j)
    decreases k
  {
    if !OccursAt(t, p, k) && k > 0 {
      RFindAtOrBelowSpec(t, p, k - 1);
    }
  }

  /** Python's `t.rfind(p)`, with `None` for -1: the start of the last occurrence of `p`. */
  function RFind(t: string, p: string): (r: Option<nat>)
    ensures r.Some? ==> OccursAt(t, p, r.value)
  {
    RFindAtOrBelow(t, p, |t|)
  }

  /** `rfind` reports the last occurrence of `p`, and reports none exactly when `p` does not occur. */
  lemma RFindSpec(t: string, p: string)
    ensures RFind(t, p).Some? ==> forall j: nat :: RFind(t, p).value < j ==> !OccursAt(t, p, j)
    ensures RFind(t, p).None? <==> !Contains(t, p)
  {
    RFindAtOrBelowSpec(t, p, |t|);
  }

  /** An occurrence with no later occurrence is the one `rfind` reports. */
  lemma RFindIsLastOccurrence(t: string, p: string, i: nat)
    requires OccursAt(t, p, i)
    requires forall j: nat :: i < j ==> !OccursAt(t, p, j)
    ensures RFind(t, p) == Some(i)
  {
    RFindSpec(t, p);
  }

  /** Python's `t.find(c, start)` for a one-character needle, with `None` for -1. */
  function FindChar(t: string, c: char, start: nat): (r: Option<nat>)
    requires start <= |t|
    ensures r.Some? ==> start <= r.value < |t| && t[r.value] == c
    decreases |t| - start
  {
    if start == |t| then None
    else if t[start] == c then Some(start)
    else FindChar(t, c, start + 1)
  }

  /** `find` skips no occurrence of `c`, and finds none exactly when `c` does not occur from `start` on. */
  lemma {:induction false} FindCharSpec(t: string, c: char, start: nat)
    requires start <= |t|
    ensures FindChar(t, c, start).Some? ==> forall k :: start <= k < FindChar(t, c, start).value ==> t[k] != c
    ensures FindChar(t, c, start).None? <==> forall k :: start <= k < |t| ==> t[k] != c
    decreases |t| - start
  {
    if start < |t| && t[start] != c {
      FindCharSpec(t, c, start + 1);
    }
  }

  /** The first `c` at or after `start` is the one `find` reports. */
  lemma FindCharIsFirst(t: string, c: char, start: nat, i: nat)
    requires start <= i < |t| && t[i] == c
    requires forall k :: start <= k < i ==> t[k] != c
    ensures FindChar(t, c, start) == Some(i)
  {
    FindCharSpec(t, c, start);
  }

  /** Text put in front of `t` cannot hide `t`'s last occurrence of `p`; it only shifts it. */
  lemma RFindShift(h: string, t: string, p: string)
    requires RFind(t, p).Some?
    ensures RFind(h + t, p) == Some(|h| + RFind(t, p).value)
  {
    var s := h + t;
    var last := RFind(t, p).value;
    RFindSpec(t, p);
    assert OccursAt(s, p, |h| + last) by {
      forall k | 0 <= k < |p| ensures s[|h| + last + k] == p[k] {
        assert s[|h| + last + k] == t[last + k];
      }
    }
    forall j: nat | |h| + last < j && j + |p| <= |s| ensures !OccursAt(s, p, j) {
      if OccursAt(s, p, j) {
        forall k | 0 <= k < |p| ensures t[j - |h| + k] == p[k] {
          assert s[j + k] == t[j - |h| + k];
        }
        assert OccursAt(t, p, j - |h|);
      }
    }
    RFindIsLastOccurrence(s, p, |h| + last);
  }

  /** Searching `h + t` from inside `t` finds what searching `t` finds, shifted by `|h|`. */
  lemma FindCharShift(h: string, t: string, c: char, start: nat)
    requires start <= |t|
    ensures FindChar(h + t, c, |h| + start).Some? <==> FindChar(t, c, start).Some?
    ensures FindChar(t, c, start).Some? ==>
      FindChar(h + t, c, |h| + start).value == |h| + FindChar(t, c, start).value
  {
    var s := h + t;
    FindCharSpec(t, c, start);
    match FindChar(t, c, start)
    case Some(i) =>
      assert s[|h| + i] == t[i];
      FindCharIsFirst(s, c, |h| + start, |h| + i);
    case None =>
      FindCharSpec(t, c, start);
      FindCharSpec(s, c, |h| + start);
      assert forall k :: |h| + start <= k < |s| ==> s[k] == t[k - |h|];
  }

  /** `a` can be obtained from `b` by deleting characters. */
  predicate IsSubsequence(a: string, b: string)
    decreases |b|
  {
    || |a| == 0
    || (|b| > 0 && ((a[0] == b[0] && IsSubsequence(a[1..], b[1..])) || IsSubsequence(a, b[1..])))
  }

  lemma {:induction false} SubsequenceOfSuffix(a: string, b: string, n: nat)
    requires n <= |b|
    requires IsSubsequence(a, b[n..])
    ensures IsSubsequence(a, b)
    decreases n
  {
    if n > 0 && |a| > 0 {
      assert b[1..][n - 1..] == b[n..];
      SubsequenceOfSuffix(a, b[1..], n - 1);
    }
  }

  /** An occurrence inside a slice is an occurrence in the whole string, shifted by the slice start. */
  lemma OccursInSlice(t: string, lo: nat, hi: nat, p: string, i: nat)
    requires lo <= hi <= |t|
    requires OccursAt(t[lo..hi], p, i)
    ensures OccursAt(t, p, lo + i)
  {
    forall k | 0 <= k < |p| ensures t[lo + i + k] == p[k] {
      assert t[lo..hi][i + k] == p[k];
    }
  }

  /**
   * `str.strip()` is characterised by its result alone: whatever whitespace
   * surrounds a stripped core, stripping returns exactly that core.
   */
  lemma StripCharacterized(a: string, m: string, b: string)
    requires AllSpace(a) && AllSpace(b) && IsStripped(m)
    ensures Strip(a + m + b) == m
  {
    var s := a + m + b;
    if |m| == 0 {
      assert AllSpace(s) by {
        forall k | 0 <= k < |s| ensures IsSpace(s[k]) {
          if k < |a| { assert s[k] == a[k]; } else { assert s[k] == b[k - |a|]; }
        }
      }
      StripBoundsOfSpace(s);
    } else {
      forall k | 0 <= k < |a| ensures IsSpace(s[k]) {
        assert s[k] == a[k];
      }
      forall k | |a| + |m| <= k < |s| ensures IsSpace(s[k]) {
        assert s[k] == b[k - |a| - |m|];
      }
      assert s[|a|] == m[0] && s[|a| + |m| - 1] == m[|m| - 1];
      StripBoundsAre(s, |a|, |a| + |m|);
      assert s[|a|..|a| + |m|] == m;
    }
  }

  /** Any bounds that cut off only whitespace and keep non-whitespace at both ends are the ones `strip` keeps. */
  lemma StripBoundsAre(s: string, i: nat, j: nat)
    requires i < j <= |s|
    requires forall k :: 0 <= k < i ==> IsSpace(s[k])
    requires forall k :: j <= k < |s| ==> IsSpace(s[k])
    requires !IsSpace(s[i]) && !IsSpace(s[j - 1])
    ensures StripBounds(s) == (i, j)
  {
    StripBoundsSpec(s);
  }

  /** A string of whitespace strips to nothing. */
  lemma StripBoundsOfSpace(s: string)
    requires AllSpace(s)
    ensures StripBounds(s).0 == StripBounds(s).1
  {
    StripBoundsSpec(s);
  }

  /** Stripping twice is the same as stripping once. */
  lemma StripIdempotent(s: string)
    ensures Strip(Strip(s)) == Strip(s)
  {
    var m := Strip(s);
    assert m == [] + m + [];
    StripCharacterized([], m, []);
  }

  /** Concatenation regroups freely; stated once so that proofs can name the step. */
  lemma ConcatAssoc<T>(a: seq<T>, b: seq<T>, c: seq<T>)
    ensures a + (b + c) == (a + b) + c
  {
  }
}

=== FILE: wrappers.dfy ===
/** Option and result types shared by the other modules. */
module Wrappers {

  datatype Option<+T> = None | Some(value: T)

  /** The value of a computation that either succeeds or raises a Python exception, named by `error`. */
  datatype Result<+R> = Success(value: R) | Failure(error: string)
}
